=== FILE: README.md ===
# Seat projection engine — a Dafny model

This project models the seat calculation `mandatumkalkulacio` of the
Hungarian election projection tool (`kalkulator/mandatumkalkulator.py`). The
model covers these stages:

- **Name normalisation.** `normalize_party_name` strips whitespace and one
  trailing `" (%)"`. It is applied to the party column headers, to the keys
  of the target, external-vote and fixed-seat dictionaries, and to the
  source and the target of every tactical rule, global or per district.
  The district names that key the per-district rule sets are kept as
  written.
- **Projection and overflow correction.** District shares are projected
  onto national targets. A district whose shares add up to more than 100 is
  scaled back to 100.
- **Tactical transfers.** Each rule moves `round(votes * fraction)` votes
  from a source party to a target party. A district with its own rule set
  uses only that set; every other district uses the global set.
- **District outcomes.** Each district has a winner (the first maximum in
  column order), a runner-up and a margin. These feed three per-party
  pools: individual mandates, leftover votes and compensation votes.
- **List weights.** A party's weight is its list base votes plus its
  external votes, leftover pool and compensation pool.
- **List seats.** Seats go to eligible parties (target at least 5 percent,
  not `"Független"`) by D'Hondt. The pool is 93 minus the fixed seats. Fixed
  seats are added afterwards, and each total is individual plus list
  mandates.

Parties are indexed by column position, so column order is the tie-break
everywhere it matters. Python dictionaries are insertion-ordered
association lists (`Dicts`). Assigning to an existing key keeps the key's
position and takes the new value. Vote counts are unbounded integers.
Shares, fractions and quotients are exact reals.

Modules, in pipeline order:

- `Results`: `Option`/`Result`.
- `Seqs`: sums.
- `Names`: `normalize_party_name`.
- `Dicts`: dictionaries and key normalisation.
- `Rounding`: Python's `round`.
- `Projection`: baseline, projection and overflow correction.
- `Tactical`: tactical transfers.
- `Outcome`: winners, margins and pools.
- `DHondt`: eligibility, fixed seats and the seat loop.
- `Engine`: the stages composed.

Behaviour worth knowing, as the code has it:

- **Rounding.** Transfers use Python's `round`, which rounds halves to
  even, not away from zero.
- **Fixed seats above 93.** When the fixed seats exceed 93, the seat loop
  runs zero times and nothing fails.
- **Tie-breaks.** Ties go to the first party in column order, not to a
  seat-count or alphabetical rule.
- **Failures.** From the vote table on, the calculation fails in three
  places, in this order. A district with a single party column has no
  runner-up, and converting the missing margin to an integer raises. The
  list base votes are not a number when no district casts a vote (there
  are no districts, or every district's votes add up to zero): each party's
  share is a mean over nothing, or over divisions by zero, and rounding it
  to an integer raises. With list seats to hand out and no eligible party,
  the seat loop takes the maximum of nothing and raises. A table without
  party columns decides no district and fails in the seat loop.

One deliberate departure from the code:

- **Zero baseline or zero population.** The code divides without a check
  and obtains infinities or NaN. With at least one district it then raises
  when it converts the projected votes to integers (:75); with none it
  raises when it rounds the list base votes (:128). The model's projection
  returns an error at the division instead. Both fail; only the point of
  failure differs. A table without parties divides nothing, and neither
  the code nor the model fails there.

## Model

| member | source | states |
|---|---|---|
| Names.Strip | kalkulator/mandatumkalkulator.py:7 | the result is trimmed, is a contiguous slice of the input starting after the leading whitespace, and only whitespace is removed around it (an all-space input gives the empty string) |
| Names.Normalize | kalkulator/mandatumkalkulator.py:3-10 | the result plus `" (%)"` is the stripped input when that ends in `" (%)"`; otherwise the result is the stripped input |
| Names.StripPadded | kalkulator/mandatumkalkulator.py:7 | any whitespace put around a non-empty trimmed core is exactly what strip removes |
| Names.NormalizeDecorated | kalkulator/mandatumkalkulator.py:7-10 | a header `"  Name (%) "` normalises to the key `"Name"`, so decorated headers and plain configuration keys meet |
| Names.NormalizeCanonical | kalkulator/mandatumkalkulator.py:7-10 | a trimmed, undecorated name is left unchanged |
| Names.NormalizeKeepsInnerSpace | kalkulator/mandatumkalkulator.py:7-10 | only one decoration is removed and strip runs before it, so `"A  (%)"` becomes `"A "` (not trimmed) |
| Dicts.Put | kalkulator/mandatumkalkulator.py:23-36 | dictionary assignment: the key maps to the new value, every other key keeps its value, key order is preserved, an absent key is appended, and unique keys stay unique |
| Dicts.FromPairs | kalkulator/mandatumkalkulator.py:23-36 | a dict comprehension has unique keys and no more entries than the input |
| Dicts.FromPairsGet | kalkulator/mandatumkalkulator.py:23-36 | each key of a dict comprehension maps to the value of its last occurrence in the input, and a key that never occurs is absent |
| Dicts.FromPairsRepeated | kalkulator/mandatumkalkulator.py:23-36 | a key given twice keeps a single entry, holding the later value |
| Dicts.PutKeys | kalkulator/mandatumkalkulator.py:23-36 | assignment keeps the key order when the key is present and appends the key at the end when it is new |
| Dicts.FromPairsKeys | kalkulator/mandatumkalkulator.py:23-36 | the keys of a dict comprehension come in order of first occurrence in the input |
| Dicts.FromPairsDistinct | kalkulator/mandatumkalkulator.py:23-36 | when the input has no repeated key, the dictionary is the input itself, entries and order alike |
| Dicts.NormalizeKeys | kalkulator/mandatumkalkulator.py:23-25 | the re-keyed dictionary has unique keys and no more entries than the original |
| Dicts.NormalizeKeysGet | kalkulator/mandatumkalkulator.py:23-25 | each normalised key carries the value of the last raw key that normalises to it |
| Dicts.NormalizeKeysLaterWins | kalkulator/mandatumkalkulator.py:23-25 | two raw keys that normalise alike collapse into a single entry holding the later value |
| Rounding.RoundHalfEven | kalkulator/mandatumkalkulator.py:90 | `round(x)` lies within one half of x, and is even when x is exactly halfway |
| Rounding.RoundHalfEvenUnique | kalkulator/mandatumkalkulator.py:90 | the two properties above determine the result uniquely |
| Rounding.RoundWithin | kalkulator/mandatumkalkulator.py:90 | rounding a value between 0 and an integer v gives an integer between 0 and v |
| Rounding.RoundScaled | kalkulator/mandatumkalkulator.py:90 | `round(v * f)` lies between 0 and v for non-negative v and f in [0, 1], and is 0 for f = 0 |
| Projection.NationalShareIsWeightedMean | kalkulator/mandatumkalkulator.py:48-51 | the reference national share times the total population is the population-weighted sum of the district shares |
| Projection.Project | kalkulator/mandatumkalkulator.py:45-63 | fails exactly when there are parties and the population is zero, or when some party's reference national share is zero; a table without parties never fails; otherwise a projected share times the party's baseline equals the district share times the party's target |
| Projection.ProjectionMeetsTarget | kalkulator/mandatumkalkulator.py:48-63 | the population-weighted mean of a party's projected shares is exactly its national target |
| Projection.CorrectedSum | kalkulator/mandatumkalkulator.py:65-70 | the correction (a row above 100 scaled by 100 / its sum, any other row kept) leaves a row adding up to at most 100, and an overflowing row adding up to exactly 100 |
| Projection.CorrectionIdempotent | kalkulator/mandatumkalkulator.py:65-70 | correcting a corrected row changes nothing |
| Projection.CorrectionKeepsOrder | kalkulator/mandatumkalkulator.py:65-70 | the correction keeps the order of any two shares in a district, both directions, ties included |
| Tactical.IndexOf | kalkulator/mandatumkalkulator.py:89 | a name is found exactly when it is a column; the position found holds the name and no earlier column does |
| Tactical.Amount | kalkulator/mandatumkalkulator.py:90 | the amount moved is 0 for a zero fraction, and between 0 and the source's votes for a fraction in [0, 1] and non-negative votes |
| Tactical.Move | kalkulator/mandatumkalkulator.py:91-92 | the source loses exactly the amount and the target gains it; every other column is unchanged; the district total is unchanged; non-negativity is kept when the amount is at most the source's votes |
| Tactical.ApplyRule | kalkulator/mandatumkalkulator.py:88-94 | a rule naming an unknown party leaves the row unchanged and emits exactly one diagnostic; a valid rule emits none, moves `Amount` from source to target and touches no other party; the district total is unchanged; a zero fraction changes nothing |
| Tactical.ApplyRulesSingle | kalkulator/mandatumkalkulator.py:88-94 | running a rule set of one rule is running that rule |
| Tactical.ApplyRulesAppend | kalkulator/mandatumkalkulator.py:88-94 | running two rule sets one after the other is running the first on the row and then the second on the result, with the diagnostics of the first before those of the second |
| Tactical.ApplyRules | kalkulator/mandatumkalkulator.py:88-94 | rules apply in insertion order; the district total is unchanged; there is one diagnostic per invalid rule; parties that no rule mentions are unchanged; all-zero fractions change nothing; non-negative votes stay non-negative when every fraction is in [0, 1]; the diagnostics are those of the invalid rules, in rule order |
| Tactical.DiagnosticsSound | kalkulator/mandatumkalkulator.py:88-94 | every diagnostic of a district names that district and the source and target of one of its rules that names a party that is not a column |
| Tactical.DiagnosticsComplete | kalkulator/mandatumkalkulator.py:88-94 | every rule naming a party that is not a column yields a diagnostic with its district, source and target |
| Tactical.TransferTable | kalkulator/mandatumkalkulator.py:80-94 | each district's row is its own row after its selected rule set, independent of every other district, and each district's total is unchanged; the diagnostics are those of each district's rule set, in district order, whatever the votes |
| Tactical.TableDiagnosticsSound | kalkulator/mandatumkalkulator.py:79-94 | every diagnostic of the table is a diagnostic of one district's selected rule set |
| Tactical.TableDiagnosticsComplete | kalkulator/mandatumkalkulator.py:79-94 | every diagnostic of a district's selected rule set is a diagnostic of the table |
| Tactical.OverrideIgnoresGlobal | kalkulator/mandatumkalkulator.py:82-83 | a district with its own rule set gets the same votes whatever the global rules are (no merging) |
| Tactical.NoOverrideUsesGlobal | kalkulator/mandatumkalkulator.py:84-85 | a district without its own rule set runs exactly the global rules |
| Tactical.ZeroRulesIdentity | kalkulator/mandatumkalkulator.py:88-92 | with only zero-fraction rules, or none at all, the whole table is unchanged |
| Tactical.NormalizeRules | kalkulator/mandatumkalkulator.py:26-29 | a normalised rule dictionary has unique source keys and no more rules than the original |
| Tactical.NormalizeRulesOrder | kalkulator/mandatumkalkulator.py:26-29 | the normalised rules come in order of the first rule for each normalised source, which is the order in which the transfers then run |
| Tactical.NormalizeRulesDistinct | kalkulator/mandatumkalkulator.py:26-29 | when no two sources normalise alike, the normalised rules are the input rules, each normalised, in input order |
| Tactical.NormalizeRulesGet | kalkulator/mandatumkalkulator.py:26-29 | each normalised source carries the last rule whose source normalises to it, with that rule's target normalised |
| Outcome.ArgMax | kalkulator/mandatumkalkulator.py:108 | the winner's votes are at least every party's votes, and every earlier party has strictly fewer (first maximum) |
| Outcome.RunnerUp | kalkulator/mandatumkalkulator.py:109 | the runner-up is a party other than the winner whose votes are at least those of every other non-winner |
| Outcome.Decide | kalkulator/mandatumkalkulator.py:108-110 | the winner is the first maximum; the margin is non-negative, equals winner minus runner-up, and no other party comes closer than the margin |
| Outcome.CreditLosers | kalkulator/mandatumkalkulator.py:119-121 | every non-winner's leftover grows by its own votes and the winner's does not change; the pool total grows by the district's votes minus the winner's |
| Outcome.Record | kalkulator/mandatumkalkulator.py:107-121 | one district adds 1 to the winner's individual mandates, margin + 1 to the winner's compensation and each loser's votes to its leftover; nothing else changes |
| Outcome.Accumulate | kalkulator/mandatumkalkulator.py:101-121 | the decisions are the per-district decisions in order, and individual mandates add up to the number of districts |
| Outcome.DecideAllPointwise | kalkulator/mandatumkalkulator.py:107-110 | the d-th recorded decision is the decision of district d alone |
| Outcome.Resolve | kalkulator/mandatumkalkulator.py:100-121 | fails exactly when there is a district and a single party column (the missing runner-up makes the margin conversion raise); with two or more parties the pools are the accumulated districts and every district contributes exactly one individual mandate; with no party column nothing is decided and the pools are empty |
| Outcome.ResolvedDecision | kalkulator/mandatumkalkulator.py:107-110 | every recorded decision is that of the district at the same position, decided on its own votes, and a decision takes at least two parties |
| Outcome.ResolvedPoolsMeaning | kalkulator/mandatumkalkulator.py:101-121 | whenever resolution succeeds, individual mandates count wins, the leftover pool sums the votes in lost districts and the compensation pool sums margin + 1 over won districts |
| Outcome.IndividualIsWins | kalkulator/mandatumkalkulator.py:115 | a party's individual mandates are the number of districts it won |
| Outcome.LeftoverIsLost | kalkulator/mandatumkalkulator.py:119-121 | a party's leftover pool is the sum of its votes over the districts it lost |
| Outcome.CompensationIsBonus | kalkulator/mandatumkalkulator.py:116 | a party's compensation pool is the sum of margin + 1 over the districts it won |
| Outcome.LeftoverConservation | kalkulator/mandatumkalkulator.py:119-121 | all leftover votes plus all winners' votes are exactly all votes cast |
| DHondt.QuotientCompare | kalkulator/mandatumkalkulator.py:151 | comparing `w/(1+s)` quotients is the same as comparing the cross-multiplied integers |
| DHondt.QuotientFalls | kalkulator/mandatumkalkulator.py:151 | a party's quotient never rises when it gains a seat (non-negative weight) |
| DHondt.Pick | kalkulator/mandatumkalkulator.py:151-152 | there is no pick exactly when no party is eligible; a pick is an eligible party |
| DHondt.PickIsFirstMax | kalkulator/mandatumkalkulator.py:151-152 | the picked party's quotient is at least every eligible party's, and strictly above every earlier eligible party's (Python's `max` keeps the first maximum) |
| DHondt.Award | kalkulator/mandatumkalkulator.py:150-153 | the loop fails exactly when a seat is to be handed out and no party is eligible |
| DHondt.AwardSum | kalkulator/mandatumkalkulator.py:150-153 | the loop hands out exactly as many seats as it runs iterations |
| DHondt.AwardFrame | kalkulator/mandatumkalkulator.py:146-153 | seats are only added, and never to an ineligible party |
| DHondt.PickKeepsHighestAverages | kalkulator/mandatumkalkulator.py:151-153 | awarding the picked party a seat keeps the highest-averages property |
| DHondt.AwardIsHighestAverages | kalkulator/mandatumkalkulator.py:150-153 | the loop's allocation is highest-averages: each party won its last seat at a quotient no eligible party's next bid exceeds |
| DHondt.ListMandates | kalkulator/mandatumkalkulator.py:146-156 | for given eligibility flags and fixed seats, the loop hands out max(0, total − fixed total) seats: it fails exactly when there are seats to hand out and no eligible party; otherwise the list mandates add up to the larger of the total and the fixed seats, every party gets at least its fixed seats, and an ineligible party gets exactly its fixed seats |
| DHondt.ListMandatesAreHighestAverages | kalkulator/mandatumkalkulator.py:146-156 | the list mandates minus the fixed seats form a highest-averages allocation over the eligible parties |
| Engine.DistrictRules | kalkulator/mandatumkalkulator.py:30-36 | the per-district rule sets have unique district keys and no more entries than given |
| Engine.DistrictRulesGet | kalkulator/mandatumkalkulator.py:30-36 | a district name, kept as written, maps to the last rule set given for it, with the rules inside normalised |
| Engine.WeightsFromDistricts | kalkulator/mandatumkalkulator.py:127-139 | a party's list weight is its list base and external votes, plus its votes in every district it lost, plus margin + 1 in every district it won |
| Engine.TransferStage | kalkulator/mandatumkalkulator.py:80-94 | the stage is the tactical transfer with normalised rules; the transferred table has the same shape, and every district keeps its total |
| Engine.ResolveStage | kalkulator/mandatumkalkulator.py:100-121 | the stage is the resolution of the transferred table: it fails exactly when a district is to be decided with a single party, and otherwise returns the resolved pools, one entry per party |
| Engine.Seating | kalkulator/mandatumkalkulator.py:141-156 | the stage is the D'Hondt apportionment over the given weights: it fails exactly when there are list seats to hand out and no eligible party, and otherwise returns the apportioned list mandates |
| Engine.Calculate | kalkulator/mandatumkalkulator.py:22-158 | fails exactly when a district has a single party column, when the list base of the transferred table cannot be computed, or when there are list seats to hand out and no eligible party, with the error of the first of these that applies; otherwise the result is the tallied table: decisions and individual mandates of the transferred table, list votes from the list base of that table plus external votes and pools, list mandates by D'Hondt over those votes, totals as their sum |
| Engine.NoDistrictsFail | kalkulator/mandatumkalkulator.py:124-130 | with party columns and no districts, the calculation fails: the list base is a mean over no districts |
| Engine.NoColumnsFailInSeating | kalkulator/mandatumkalkulator.py:141-156 | without party columns the list base exists and the calculation fails only in the seat loop, with no eligible party |
| Engine.ZeroVotesFail | kalkulator/mandatumkalkulator.py:96-98 | when every district's votes add up to zero, the calculation fails whatever the transfers, which keep those totals |
| Engine.TalliedShape | kalkulator/mandatumkalkulator.py:100-158 | a tallied table has one entry per party, one decision per district and one individual mandate per district, and a district means at least two parties |
| Engine.TalliedList | kalkulator/mandatumkalkulator.py:141-156 | the list mandates of a tallied table add up to the larger of 93 and the total of the configured fixed seats, give everyone at least its fixed seats and a party below the threshold exactly those |
| Engine.TalliedThreshold | kalkulator/mandatumkalkulator.py:141-156 | in terms of the configuration: a party gets at least its configured fixed seats (0 when missing), and a party that is `"Független"` or whose target (0 when missing) is under 5 gets exactly those |
| Engine.TalliedTotals | kalkulator/mandatumkalkulator.py:158 | each party's total is its individual plus its list mandates, and the totals add up accordingly |
| Engine.TalliedDecisions | kalkulator/mandatumkalkulator.py:107-114 | the decisions are those of the transferred table, district by district in order |
| Engine.CalculatedDistricts | kalkulator/mandatumkalkulator.py:107-110 | each district's decision is taken on its votes after the transfers |
| Engine.CalculatedIndividualIsWins | kalkulator/mandatumkalkulator.py:115 | a party's individual mandates are the number of districts it won after the transfers |
| Engine.CalculatedWeights | kalkulator/mandatumkalkulator.py:127-139 | the transferred table has a list base, and a party's list votes are its list base there plus its external votes, its votes in the districts it lost and margin + 1 in the districts it won |
| Engine.CalculatedListIsHighestAverages | kalkulator/mandatumkalkulator.py:146-156 | with no negative list votes, the list mandates above the fixed seats are a highest-averages allocation of the calculated list votes over the eligible parties |

## Left out

- CSV reading, dropping the index column and writing the output table
  (kalkulator/mandatumkalkulator.py:38-39, :164-171): I/O. The model's
  input is the district names, the raw column headers and the vote table.
- Console output of the diagnostics and the mandate summary (:94,
  :160-162): I/O. Diagnostics are returned as data instead.
- Float-to-int rounding of turnout, district votes, adjusted percentages
  and list base votes (:73-77, :97-98, :124-130): pandas float arithmetic.
  The rounded vote table is an input to `Engine.Calculate`, and so is the
  list base computation, as a function that the calculation applies to the
  table after the transfers; it yields nothing where the float arithmetic
  raises, and must do so for a voteless table. Projection and overflow
  correction (`Projection`) are not chained into it.
- Engine.Calculate: failures of the float pipeline before the transfers
  (a zero population or baseline, :49-:75) reach the calculation only
  through the list base function yielding nothing. The model then reports
  them after the district stage, so a table that also has a single-party
  district fails with that error instead.
- The margin percentage and the per-district output columns (:112, :117,
  :164-169): float rounding to two decimals, for output only.
- The national vote sums per party (:131-134): printed only.
- Floating-point error in general: shares and fractions are exact reals,
  and `round(v * fraction)` is computed on the exact product.
- Projection.Project: returns an error where the code produces infinities
  or NaN (a zero baseline, or a zero population with at least one party).
- Projection.ProjectionMeetsTarget: states the calibration in exact reals;
  floating-point drift is not covered.
- Duplicate column headers after normalisation: pandas would address
  several columns under one label. Column positions are assumed to carry
  distinct names, and `IndexOf` takes the first.
- DHondt.ListMandatesAreHighestAverages: proved for non-negative weights
  only. A negative weight (from negative external votes) breaks the
  property, and the loop still runs as written.
- kalkulator/terkepkalkulator.py (SVG map), kutatasok/loess/loess.py
  (regression and plots), kutatasok/oszlopdiagram/oszlopdiagram.py (bar
  charts) and kalkulator/main.py (a script with hard-coded configuration)
  are not part of this model: they are rendering, plotting and wiring,
  not the seat calculation.

=== FILE: dhondt.dfy ===
/** List-seat apportionment (kalkulator/mandatumkalkulator.py:141-158): the
    seats left after the fixed ones are handed out one at a time, each to the
    eligible party with the highest weight / (1 + seats so far), the first
    such party in column order on a tie (Python's max keeps the first
    maximum). Quotients are compared as exact rationals. */
module DHondt {
  import opened Results
  import opened Seqs
  import Dicts

  /** weight / (1 + seats) */
  function Quotient(weight: int, seats: nat): real
  {
    weight as real / (1 + seats) as real
  }

  /** Comparing quotients is comparing cross-products. */
  lemma QuotientCompare(a: int, sa: nat, b: int, sb: nat)
    ensures Quotient(a, sa) > Quotient(b, sb) <==> a * (1 + sb) > b * (1 + sa)
  {
    var da := (1 + sa) as real;
    var db := (1 + sb) as real;
    var x := Quotient(a, sa);
    var y := Quotient(b, sb);
    assert x * da == a as real;
    assert y * db == b as real;
    assert (a * (1 + sb)) as real == x * da * db;
    assert (b * (1 + sa)) as real == y * db * da;
    assert da * db > 0.0;
    if x > y {
      assert x * (da * db) > y * (da * db);
    }
    if x * (da * db) > y * (da * db) {
      assert x > y;
    }
  }

  /** A non-negative weight's quotient does not grow with more seats. */
  lemma QuotientFalls(w: int, s: nat)
    requires w >= 0
    ensures Quotient(w, s + 1) <= Quotient(w, s)
  {
    QuotientCompare(w, s + 1, w, s);
  }

  predicate Shaped(w: seq<int>, s: seq<nat>, elig: seq<bool>)
  {
    |w| == |s| == |elig|
  }

  /** The eligible party with the highest quotient among the first k
      parties, the earliest one on a tie; none when none of them is eligible. */
  function PickUpTo(w: seq<int>, s: seq<nat>, elig: seq<bool>, k: nat): (r: Option<nat>)
    requires Shaped(w, s, elig) && k <= |w|
    ensures r.None? <==> forall i :: 0 <= i < k ==> !elig[i]
    ensures r.Some? ==> r.value < k && elig[r.value]
  {
    if k == 0 then None
    else
      var prev := PickUpTo(w, s, elig, k - 1);
      if !elig[k - 1] then prev
      else match prev
        case None => Some(k - 1)
        case Some(b) => if Quotient(w[k - 1], s[k - 1]) > Quotient(w[b], s[b]) then Some(k - 1) else prev
  }

  /** The party that receives the next seat, if any party is eligible. */
  function Pick(w: seq<int>, s: seq<nat>, elig: seq<bool>): (r: Option<nat>)
    requires Shaped(w, s, elig)
    ensures r.None? <==> forall i :: 0 <= i < |w| ==> !elig[i]
    ensures r.Some? ==> r.value < |w| && elig[r.value]
  {
    PickUpTo(w, s, elig, |w|)
  }

  /** The chosen party is the first eligible party whose quotient is maximal:
      no eligible party bids more, and every eligible party before it bids
      strictly less. */
  lemma {:induction false} PickUpToIsFirstMax(w: seq<int>, s: seq<nat>, elig: seq<bool>, k: nat)
    requires Shaped(w, s, elig) && k <= |w| && PickUpTo(w, s, elig, k).Some?
    ensures var a := PickUpTo(w, s, elig, k).value;
            && (forall i :: 0 <= i < k && elig[i] ==> Quotient(w[i], s[i]) <= Quotient(w[a], s[a]))
            && (forall i :: 0 <= i < a && elig[i] ==> Quotient(w[i], s[i]) < Quotient(w[a], s[a]))
  {
    var prev := PickUpTo(w, s, elig, k - 1);
    if prev.Some? {
      PickUpToIsFirstMax(w, s, elig, k - 1);
    }
  }

  /** Each seat goes to the first eligible party with the highest quotient. */
  lemma PickIsFirstMax(w: seq<int>, s: seq<nat>, elig: seq<bool>)
    requires Shaped(w, s, elig) && Pick(w, s, elig).Some?
    ensures var a := Pick(w, s, elig).value;
            && (forall i :: 0 <= i < |w| && elig[i] ==> Quotient(w[i], s[i]) <= Quotient(w[a], s[a]))
            && (forall i :: 0 <= i < a && elig[i] ==> Quotient(w[i], s[i]) < Quotient(w[a], s[a]))
  {
    PickUpToIsFirstMax(w, s, elig, |w|);
  }

  datatype ApportionError = NoEligibleParty

  /** The loop at :150-153 with k seats still to hand out. */
  function Award(w: seq<int>, elig: seq<bool>, s: seq<nat>, k: nat): (r: Result<seq<nat>, ApportionError>)
    requires Shaped(w, s, elig)
    ensures r.Err? <==> k > 0 && forall i :: 0 <= i < |w| ==> !elig[i]
    ensures r.Ok? ==> |r.value| == |s|
    decreases k
  {
    if k == 0 then Ok(s)
    else match Pick(w, s, elig)
      case None => Err(NoEligibleParty)
      case Some(a) => Award(w, elig, s[a := s[a] + 1], k - 1)
  }

  /** Every iteration hands out exactly one seat. */
  lemma {:induction false} AwardSum(w: seq<int>, elig: seq<bool>, s: seq<nat>, k: nat)
    requires Shaped(w, s, elig) && Award(w, elig, s, k).Ok?
    ensures Sum(Award(w, elig, s, k).value) == Sum(s) + k
    decreases k
  {
    if k > 0 {
      var a := Pick(w, s, elig).value;
      var t := s[a := s[a] + 1];
      var rest := Award(w, elig, t, k - 1).value;
      assert Award(w, elig, s, k).value == rest;
      SumUpdate(s, a, s[a] + 1);
      AwardSum(w, elig, t, k - 1);
      assert Sum(rest) == Sum(t) + (k - 1);
    }
  }

  /** Seats are only ever added, and only to eligible parties. */
  lemma {:induction false} AwardFrame(w: seq<int>, elig: seq<bool>, s: seq<nat>, k: nat, i: nat)
    requires Shaped(w, s, elig) && Award(w, elig, s, k).Ok? && i < |s|
    ensures Award(w, elig, s, k).value[i] >= s[i]
    ensures !elig[i] ==> Award(w, elig, s, k).value[i] == s[i]
    decreases k
  {
    if k > 0 {
      var a := Pick(w, s, elig).value;
      var t := s[a := s[a] + 1];
      assert Award(w, elig, s, k) == Award(w, elig, t, k - 1);
      AwardFrame(w, elig, t, k - 1, i);
    }
  }

  /** The allocation is a highest-averages one: the quotient at which any
      party won its last seat is at least the quotient every eligible party
      would bid for its next seat. */
  ghost predicate HighestAverages(w: seq<int>, s: seq<nat>, elig: seq<bool>)
    requires Shaped(w, s, elig)
  {
    forall i, j :: 0 <= i < |w| && 0 <= j < |w| ==> Outbids(w, s, elig, i, j)
  }

  /** When both are eligible and i holds a seat, the quotient at which i won
      its last seat is at least j's next bid. */
  ghost predicate Outbids(w: seq<int>, s: seq<nat>, elig: seq<bool>, i: nat, j: nat)
    requires Shaped(w, s, elig) && i < |w| && j < |w|
  {
    elig[i] && elig[j] && s[i] > 0 ==> Quotient(w[i], s[i] - 1) >= Quotient(w[j], s[j])
  }

  predicate NonNegative(w: seq<int>)
  {
    forall i :: 0 <= i < |w| ==> w[i] >= 0
  }

  /** One award keeps the highest-averages property (weights non-negative). */
  lemma {:induction false} PickKeepsHighestAverages(w: seq<int>, s: seq<nat>, elig: seq<bool>)
    requires Shaped(w, s, elig) && NonNegative(w) && HighestAverages(w, s, elig)
    requires Pick(w, s, elig).Some?
    ensures var a := Pick(w, s, elig).value; HighestAverages(w, s[a := s[a] + 1], elig)
  {
    var a := Pick(w, s, elig).value;
    var t := s[a := s[a] + 1];
    PickIsFirstMax(w, s, elig);
    forall i, j | 0 <= i < |w| && 0 <= j < |w| ensures Outbids(w, t, elig, i, j) {
      if elig[i] && elig[j] && t[i] > 0 {
        // The new bid of a is no higher than a's winning quotient.
        QuotientFalls(w[a], s[a]);
        if i == a {
          assert Quotient(w[i], t[i] - 1) == Quotient(w[a], s[a]);
          if j != a {
            assert t[j] == s[j];
          }
        } else {
          assert t[i] == s[i];
          if j == a {
            assert Outbids(w, s, elig, i, a);
          } else {
            assert t[j] == s[j];
            assert Outbids(w, s, elig, i, j);
          }
        }
      }
    }
  }

  /** Awarding any number of seats from a highest-averages allocation (in
      particular from no seats at all) ends in one. */
  lemma {:induction false} AwardIsHighestAverages(w: seq<int>, elig: seq<bool>, s: seq<nat>, k: nat)
    requires Shaped(w, s, elig) && NonNegative(w) && HighestAverages(w, s, elig)
    requires Award(w, elig, s, k).Ok?
    ensures HighestAverages(w, Award(w, elig, s, k).value, elig)
    decreases k
  {
    if k > 0 {
      AwardStep(w, elig, s, k);
      var a := Pick(w, s, elig).value;
      PickKeepsHighestAverages(w, s, elig);
      AwardIsHighestAverages(w, elig, s[a := s[a] + 1], k - 1);
    }
  }

  /** One iteration of the loop: the next seat goes to the picked party. */
  lemma AwardStep(w: seq<int>, elig: seq<bool>, s: seq<nat>, k: nat)
    requires Shaped(w, s, elig) && Award(w, elig, s, k).Ok? && k > 0
    ensures Pick(w, s, elig).Some?
    ensures var a := Pick(w, s, elig).value;
            Award(w, elig, s, k) == Award(w, elig, s[a := s[a] + 1], k - 1)
  {
  }

  /** The designated non-competing category, never eligible for list seats. */
  const Independent: string := "Független"

  /** The 5% threshold on the national target share. */
  const Threshold: real := 5.0

  /** Eligible parties (:142-145): a party competes for list seats when it is not the
      independent category and its national target is at least 5 percent
      (a party missing from the targets counts as 0). */
  function Eligibility(parties: seq<string>, targets: Dicts.Dict<real>): (elig: seq<bool>)
    ensures |elig| == |parties|
    ensures forall i :: 0 <= i < |parties| ==>
              (elig[i] <==> parties[i] != Independent && Dicts.GetOr(targets, parties[i], 0.0) >= Threshold)
  {
    seq(|parties|, i requires 0 <= i < |parties| =>
      parties[i] != Independent && Dicts.GetOr(targets, parties[i], 0.0) >= Threshold)
  }

  /** Each column's configured fixed seats, in column order; a party the
      dictionary does not mention has none. */
  function FixedSeats(parties: seq<string>, fixed: Dicts.Dict<int>): (f: seq<int>)
    ensures |f| == |parties|
    ensures forall i :: 0 <= i < |parties| ==> f[i] == Dicts.GetOr(fixed, parties[i], 0)
  {
    seq(|parties|, i requires 0 <= i < |parties| => Dicts.GetOr(fixed, parties[i], 0))
  }

  /** Seats handed out by the loop: the total minus the fixed seats, and
      none at all when the fixed seats already reach the total. */
  function PoolSize(totalSeats: int, fixedTotal: int): (k: nat)
    ensures k == if totalSeats - fixedTotal > 0 then totalSeats - fixedTotal else 0
  {
    if totalSeats - fixedTotal > 0 then totalSeats - fixedTotal else 0
  }

  /** The D'Hondt loop starts with no seats for anybody (:147-149). */
  function NoSeats(n: nat): (z: seq<nat>)
    ensures |z| == n && Sum(z) == 0
    ensures forall i :: 0 <= i < n ==> z[i] == 0
  {
    SumZeros(n);
    assert seq(n, _ => 0) == Zeros(n);
    seq(n, _ => 0)
  }

  /** List mandates (:146-156): D'Hondt seats over the eligible parties for
      the pool left after the fixed seats, then every party's fixed seats on
      top. The pool is never negative, so the list mandates add up to the
      larger of the seat total and the fixed total; a party that is not
      eligible gets exactly its fixed seats; with seats to hand out and no
      eligible party the source fails (max of an empty dict). */
  function ListMandates(weights: seq<int>, elig: seq<bool>, fixed: seq<int>, totalSeats: int)
    : (r: Result<seq<int>, ApportionError>)
    requires |weights| == |elig| == |fixed|
    ensures r.Err? <==> PoolSize(totalSeats, Sum(fixed)) > 0 && forall i :: 0 <= i < |elig| ==> !elig[i]
    ensures r.Ok? ==> |r.value| == |weights|
    ensures r.Ok? ==> Sum(r.value) == (if totalSeats > Sum(fixed) then totalSeats else Sum(fixed))
    ensures r.Ok? ==> forall i :: 0 <= i < |elig| && !elig[i] ==> r.value[i] == fixed[i]
    ensures r.Ok? ==> forall i :: 0 <= i < |elig| ==> r.value[i] >= fixed[i]
  {
    var n := |weights|;
    var k := PoolSize(totalSeats, Sum(fixed));
    var dh :- Award(weights, elig, NoSeats(n), k);
    AwardSum(weights, elig, NoSeats(n), k);
    assert forall i :: 0 <= i < n ==> dh[i] >= 0 && (!elig[i] ==> dh[i] == 0) by {
      forall i | 0 <= i < n ensures dh[i] >= 0 && (!elig[i] ==> dh[i] == 0) {
        AwardFrame(weights, elig, NoSeats(n), k, i);
      }
    }
    SumAdd(dh, fixed);
    Ok(Add(dh, fixed))
  }

  /** The list mandates minus the fixed seats are the D'Hondt seats, and
      they form a highest-averages allocation over the eligible parties when
      no weight is negative: every party that won a seat in the loop won its
      last one at a quotient no eligible party's next bid exceeds. */
  lemma ListMandatesAreHighestAverages(weights: seq<int>, elig: seq<bool>, fixed: seq<int>, totalSeats: int)
    requires |weights| == |elig| == |fixed| && NonNegative(weights)
    requires ListMandates(weights, elig, fixed, totalSeats).Ok?
    ensures var l := ListMandates(weights, elig, fixed, totalSeats).value;
            forall i, j :: 0 <= i < |l| && 0 <= j < |l| ==> OutbidsAbove(weights, elig, fixed, l, i, j)
  {
    var k := PoolSize(totalSeats, Sum(fixed));
    ListMandatesValue(weights, elig, fixed, totalSeats);
    SeatsFromNothing(weights, elig, k);
    ShiftedHighestAverages(weights, elig, Award(weights, elig, NoSeats(|weights|), k).value, fixed,
      ListMandates(weights, elig, fixed, totalSeats).value);
  }

  /** The D'Hondt loop run from no seats at all ends in a highest-averages
      allocation. */
  lemma SeatsFromNothing(w: seq<int>, elig: seq<bool>, k: nat)
    requires |w| == |elig| && NonNegative(w) && Award(w, elig, NoSeats(|w|), k).Ok?
    ensures HighestAverages(w, Award(w, elig, NoSeats(|w|), k).value, elig)
  {
    AwardIsHighestAverages(w, elig, NoSeats(|w|), k);
  }

  /** A successful apportionment is the D'Hondt seats from nothing plus the
      fixed seats. */
  lemma ListMandatesValue(weights: seq<int>, elig: seq<bool>, fixed: seq<int>, totalSeats: int)
    requires |weights| == |elig| == |fixed|
    requires ListMandates(weights, elig, fixed, totalSeats).Ok?
    ensures var zero := NoSeats(|weights|);
            && Award(weights, elig, zero, PoolSize(totalSeats, Sum(fixed))).Ok?
            && ListMandates(weights, elig, fixed, totalSeats).value
                 == Add(Award(weights, elig, zero, PoolSize(totalSeats, Sum(fixed))).value, fixed)
  {
  }

  /** Outbids, counting only the seats above each party's fixed seats. */
  predicate OutbidsAbove(w: seq<int>, elig: seq<bool>, fixed: seq<int>, l: seq<int>, i: nat, j: nat)
    requires i < |w| == |elig| == |fixed| == |l| && j < |w|
  {
    elig[i] && elig[j] && l[i] > fixed[i] && l[j] >= fixed[j] ==>
      Quotient(w[i], l[i] - fixed[i] - 1) >= Quotient(w[j], l[j] - fixed[j])
  }

  /** Adding the fixed seats on top of a highest-averages allocation shifts
      every quotient index by the party's fixed seats. */
  lemma ShiftedHighestAverages(w: seq<int>, elig: seq<bool>, dh: seq<nat>, fixed: seq<int>, l: seq<int>)
    requires Shaped(w, dh, elig) && |fixed| == |w| && HighestAverages(w, dh, elig)
    requires l == Add(dh, fixed)
    ensures forall i, j :: 0 <= i < |l| && 0 <= j < |l| ==> OutbidsAbove(w, elig, fixed, l, i, j)
  {
    forall i, j | 0 <= i < |l| && 0 <= j < |l| ensures OutbidsAbove(w, elig, fixed, l, i, j) {
      assert l[i] - fixed[i] == dh[i] && l[j] - fixed[j] == dh[j];
      assert Outbids(w, dh, elig, i, j);
    }
  }
}

=== FILE: dicts.dfy ===
/** Python dictionaries as insertion-ordered association lists: assigning to
    an existing key replaces its value in place, a new key is appended. The
    configuration maps of the engine (targets, external votes, fixed seats,
    tactical rules) are dictionaries whose keys are normalised party names. */
module Dicts {
  import opened Results
  import Names

  type Dict<V> = seq<(string, V)>

  predicate UniqueKeys<V>(d: Dict<V>)
  {
    forall i, j :: 0 <= i < j < |d| ==> d[i].0 != d[j].0
  }

  /** Position of key k, if present. */
  function Find<V>(d: Dict<V>, k: string): (r: Option<nat>)
    ensures r.None? <==> forall i :: 0 <= i < |d| ==> d[i].0 != k
    ensures r.Some? ==> r.value < |d| && d[r.value].0 == k
                        && forall i :: 0 <= i < r.value ==> d[i].0 != k
  {
    if |d| == 0 then None
    else if d[0].0 == k then Some(0)
    else match Find(d[1..], k)
      case None => None
      case Some(i) => Some(i + 1)
  }

  /** The value stored under k, if any. */
  function Get<V>(d: Dict<V>, k: string): Option<V>
  {
    match Find(d, k)
    case None => None
    case Some(i) => Some(d[i].1)
  }

  /** The value stored under k, or the default when k is absent. */
  function GetOr<V>(d: Dict<V>, k: string, default: V): V
  {
    match Get(d, k)
    case None => default
    case Some(v) => v
  }

  /** d[k] = v: a present key keeps its position and takes the new value,
      an absent key is appended; no other entry changes. */
  function Put<V>(d: Dict<V>, k: string, v: V): (r: Dict<V>)
    ensures UniqueKeys(d) ==> UniqueKeys(r)
    ensures Get(r, k) == Some(v)
    ensures forall k' :: k' != k ==> Get(r, k') == Get(d, k')
    ensures |r| == |d| || |r| == |d| + 1
    ensures forall i :: 0 <= i < |d| ==> r[i].0 == d[i].0
  {
    match Find(d, k)
    case Some(i) =>
      var r := d[i := (k, v)];
      assert forall k' :: Find(r, k') == Find(d, k') by {
        forall k' ensures Find(r, k') == Find(d, k') {
          FindSameKeys(r, d, k');
        }
      }
      r
    case None =>
      var r := d + [(k, v)];
      assert forall k' :: k' != k ==> Find(r, k') == Find(d, k') by {
        forall k' | k' != k ensures Find(r, k') == Find(d, k') {
          FindAppend(d, (k, v), k');
        }
      }
      FindAppend(d, (k, v), k);
      r
  }

  lemma FindSameKeys<V>(a: Dict<V>, b: Dict<V>, k: string)
    requires |a| == |b| && forall i :: 0 <= i < |a| ==> a[i].0 == b[i].0
    ensures Find(a, k) == Find(b, k)
  {
  }

  lemma FindAppend<V>(d: Dict<V>, e: (string, V), k: string)
    ensures Find(d + [e], k) == if Find(d, k).Some? then Find(d, k)
                                else if e.0 == k then Some(|d|) else None
  {
    var r := Find(d + [e], k);
    var f := Find(d, k);
    if f.Some? {
      assert (d + [e])[f.value] == d[f.value];
    } else if e.0 == k {
      assert (d + [e])[|d|] == e;
    }
  }

  /** The keys of a dictionary, in order. */
  function Keys<V>(d: Dict<V>): (ks: seq<string>)
    ensures |ks| == |d|
    ensures forall i :: 0 <= i < |d| ==> ks[i] == d[i].0
  {
    seq(|d|, i requires 0 <= i < |d| => d[i].0)
  }

  /** Assignment to a present key replaces that entry in place. */
  lemma PutPresent<V>(d: Dict<V>, k: string, v: V, i: nat)
    requires Find(d, k) == Some(i)
    ensures Put(d, k, v) == d[i := (k, v)]
  {
  }

  /** Assignment to an absent key appends the entry. */
  lemma PutAbsent<V>(d: Dict<V>, k: string, v: V)
    requires Find(d, k).None?
    ensures Put(d, k, v) == d + [(k, v)]
  {
  }

  /** Assignment keeps the key order and appends a new key at the end. */
  lemma PutKeys<V>(d: Dict<V>, k: string, v: V)
    ensures Keys(Put(d, k, v)) == if k in Keys(d) then Keys(d) else Keys(d) + [k]
  {
    match Find(d, k)
    case Some(i) =>
      PutPresent(d, k, v, i);
      assert Keys(d)[i] == k;
      assert Keys(Put(d, k, v)) == Keys(d);
    case None =>
      PutAbsent(d, k, v);
      assert k !in Keys(d);
      assert Keys(d + [(k, v)]) == Keys(d) + [k];
  }

  /** The distinct keys of the pairs, each at its first occurrence. */
  ghost function FirstKeys<V>(pairs: seq<(string, V)>): seq<string>
  {
    if |pairs| == 0 then []
    else
      var prev := FirstKeys(pairs[..|pairs| - 1]);
      var k := pairs[|pairs| - 1].0;
      if k in prev then prev else prev + [k]
  }

  /** The value Python keeps for key k after inserting the pairs in order:
      the one carried by the last pair with that key. */
  ghost function LastValue<V>(pairs: seq<(string, V)>, k: string): Option<V>
  {
    if |pairs| == 0 then None
    else if pairs[|pairs| - 1].0 == k then Some(pairs[|pairs| - 1].1)
    else LastValue(pairs[..|pairs| - 1], k)
  }

  /** A dictionary built by assigning the pairs one after another: keys stay
      unique, and there are no more entries than pairs. */
  function FromPairs<V>(pairs: seq<(string, V)>): (d: Dict<V>)
    ensures UniqueKeys(d)
    ensures |d| <= |pairs|
  {
    if |pairs| == 0 then []
    else
      var last := pairs[|pairs| - 1];
      Put(FromPairs(pairs[..|pairs| - 1]), last.0, last.1)
  }

  /** Each key of dict(pairs) maps to the value of its last occurrence, and
      keys that never occur are absent. */
  lemma {:induction false} FromPairsGet<V>(pairs: seq<(string, V)>, k: string)
    ensures Get(FromPairs(pairs), k) == LastValue(pairs, k)
  {
    if |pairs| > 0 {
      FromPairsGet(pairs[..|pairs| - 1], k);
    }
  }

  /** dict(pairs) lists each key where it first occurred: a later pair with
      the same key changes the value, not the position. */
  lemma {:induction false} FromPairsKeys<V>(pairs: seq<(string, V)>)
    ensures Keys(FromPairs(pairs)) == FirstKeys(pairs)
  {
    if |pairs| > 0 {
      var init := pairs[..|pairs| - 1];
      var last := pairs[|pairs| - 1];
      FromPairsKeys(init);
      PutKeys(FromPairs(init), last.0, last.1);
    }
  }

  /** Pairs whose keys are already distinct make a dictionary of exactly
      those entries, in the same order. */
  lemma {:induction false} FromPairsDistinct<V>(pairs: seq<(string, V)>)
    requires UniqueKeys(pairs)
    ensures FromPairs(pairs) == pairs
  {
    if |pairs| > 0 {
      var init := pairs[..|pairs| - 1];
      var last := pairs[|pairs| - 1];
      assert pairs == init + [last];
      UniqueKeysLast(pairs);
      FromPairsDistinct(init);
      PutAbsent(init, last.0, last.1);
    }
  }

  /** Without repeated keys, the last key does not occur before it. */
  lemma UniqueKeysLast<V>(pairs: seq<(string, V)>)
    requires UniqueKeys(pairs) && |pairs| > 0
    ensures UniqueKeys(pairs[..|pairs| - 1])
    ensures Find(pairs[..|pairs| - 1], pairs[|pairs| - 1].0).None?
  {
    var init := pairs[..|pairs| - 1];
    assert forall i :: 0 <= i < |init| ==> init[i] == pairs[i];
  }

  /** Re-keys a dictionary by normalised names, assigning the entries in
      their original order. */
  function NormalizeKeys<V>(d: Dict<V>): (r: Dict<V>)
    ensures UniqueKeys(r)
    ensures |r| <= |d|
  {
    FromPairs(Renamed(d))
  }

  /** A normalised key maps to the value of the last raw key that normalises
      to it. */
  lemma NormalizeKeysGet<V>(d: Dict<V>, k: string)
    ensures Get(NormalizeKeys(d), k) == LastValue(Renamed(d), k)
  {
    FromPairsGet(Renamed(d), k);
  }

  function Renamed<V>(d: Dict<V>): (r: seq<(string, V)>)
    ensures |r| == |d|
    ensures forall i :: 0 <= i < |d| ==> r[i] == (Names.Normalize(d[i].0), d[i].1)
  {
    seq(|d|, i requires 0 <= i < |d| => (Names.Normalize(d[i].0), d[i].1))
  }

  /** Two raw keys that normalise alike collapse into one entry, and the
      later value wins. */
  lemma NormalizeKeysLaterWins<V>(a: string, b: string, x: V, y: V)
    requires Names.Normalize(a) == Names.Normalize(b)
    ensures NormalizeKeys([(a, x), (b, y)]) == [(Names.Normalize(a), y)]
  {
    RenamedPair(a, b, x, y);
    FromPairsRepeated(Names.Normalize(a), x, y);
  }

  /** Renaming two entries normalises both keys and keeps their order. */
  lemma RenamedPair<V>(a: string, b: string, x: V, y: V)
    ensures Renamed([(a, x), (b, y)]) == [(Names.Normalize(a), x), (Names.Normalize(b), y)]
  {
    var d := [(a, x), (b, y)];
    var r := Renamed(d);
    assert d[0].0 == a && d[1].0 == b;
    assert r == [r[0], r[1]];
  }

  /** A key given twice keeps one entry, holding the later value. */
  lemma FromPairsRepeated<V>(k: string, x: V, y: V)
    ensures FromPairs([(k, x), (k, y)]) == [(k, y)]
  {
    var pairs := [(k, x), (k, y)];
    assert pairs[..1] == [(k, x)];
    PutSingle(k, x, y);
    assert FromPairs([(k, x)]) == Put([], k, x) == [(k, x)];
  }

  /** Putting an existing key replaces its value in place. */
  lemma PutSingle<V>(k: string, x: V, y: V)
    ensures Put([(k, x)], k, y) == [(k, y)]
  {
    assert Find([(k, x)], k) == Some(0);
  }
}

=== FILE: engine.dfy ===
/** The seat calculation of mandatumkalkulacio
    (kalkulator/mandatumkalkulator.py:12-172) from the rounded district vote
    table onwards: configuration keys are normalised, tactical transfers are
    applied, districts are decided, the list weights are formed and the list
    seats are apportioned. The float pipeline that produces the vote table
    is taken as input, and the list base votes as a function of the table
    after the transfers. */
module Engine {
  import opened Results
  import opened Seqs
  import Dicts
  import Names
  import Tactical
  import Outcome
  import DHondt

  /** The list seats of the parliament, fixed in the original. */
  const ListSeats: int := 93

  /** The configuration dictionaries as the caller passes them, before
      their keys are normalised. */
  datatype Config = Config(
    targets: Dicts.Dict<real>,
    external: Dicts.Dict<int>,
    fixed: Dicts.Dict<int>,
    rules: Tactical.RuleDict,
    districtRules: Dicts.Dict<Tactical.RuleDict>)

  /** The vote table after the float pipeline: district names, the party
      columns as written in the file, the rounded votes per district and
      party, and the list base votes as a function of a vote table. The
      calculation applies it to the table after the transfers (:96-98,
      :124-130: each party's mean share of the district totals in that
      table, times the national turnout, rounded). The function yields
      None where that float arithmetic raises. */
  datatype Ballots = Ballots(
    districts: seq<string>,
    columns: seq<string>,
    votes: seq<seq<int>>,
    listBase: seq<seq<int>> -> Option<seq<int>>)

  /** A vote table in which no district casts a vote: either it has no
      districts, or every district's votes add up to zero. */
  predicate Voteless(rows: seq<seq<int>>)
  {
    |rows| == 0 || forall d :: 0 <= d < |rows| ==> Sum(rows[d]) == 0
  }

  /** One vote row per district, one column per party, and one list base
      per party whenever there is one. With at least one party there is
      none for a voteless table: every party's share is then a mean over
      no values, or over divisions by a zero district total, which is not
      a number, and rounding it to an integer raises (:98, :128). Without
      parties the list base is empty and never fails, as the comprehension
      runs over no party. */
  ghost predicate WellShaped(b: Ballots)
  {
    && |b.votes| == |b.districts|
    && (forall d :: 0 <= d < |b.votes| ==> |b.votes[d]| == |b.columns|)
    && (forall rows :: b.listBase(rows).Some? ==> |b.listBase(rows).value| == |b.columns|)
    && (|b.columns| > 0 ==> forall rows :: Voteless(rows) ==> b.listBase(rows).None?)
    && (|b.columns| == 0 ==> EmptyBase(b))
  }

  /** A list base that exists, and is empty, for every table. */
  ghost predicate EmptyBase(b: Ballots)
  {
    forall rows :: b.listBase(rows) == Some([])
  }

  /** The result: per party the individual, list and total mandates and the
      list votes the party competed with; per district the
      decision; and the diagnostics of the transfers. */
  datatype Mandates = Mandates(
    parties: seq<string>,
    individual: seq<int>,
    list: seq<int>,
    total: seq<int>,
    weights: seq<int>,
    decisions: seq<Outcome.Decision>,
    warnings: seq<Tactical.Warning>)

  datatype EngineError = TooFewParties | NoListBase | NoEligibleParty

  /** Party names as the engine sees them (:41-43). */
  function Parties(columns: seq<string>): (ps: seq<string>)
    ensures |ps| == |columns|
    ensures forall i :: 0 <= i < |columns| ==> ps[i] == Names.Normalize(columns[i])
  {
    seq(|columns|, i requires 0 <= i < |columns| => Names.Normalize(columns[i]))
  }

  /** The per-district rule dictionaries with their inner keys and targets
      normalised; the district names themselves are kept (:30-36). */
  function DistrictRules(d: Dicts.Dict<Tactical.RuleDict>): (r: Dicts.Dict<seq<Tactical.Rule>>)
    ensures Dicts.UniqueKeys(r)
    ensures |r| <= |d|
  {
    Dicts.FromPairs(NormalizedDistricts(d))
  }

  /** A district maps to the normalised form of the last rule set given for
      it. */
  lemma DistrictRulesGet(d: Dicts.Dict<Tactical.RuleDict>, k: string)
    ensures Dicts.Get(DistrictRules(d), k) == Dicts.LastValue(NormalizedDistricts(d), k)
  {
    Dicts.FromPairsGet(NormalizedDistricts(d), k);
  }

  function NormalizedDistricts(d: Dicts.Dict<Tactical.RuleDict>): seq<(string, seq<Tactical.Rule>)>
  {
    seq(|d|, i requires 0 <= i < |d| => (d[i].0, Tactical.ToRules(Tactical.NormalizeRules(d[i].1))))
  }

  /** List votes (:127-139): list base votes plus external votes plus the
      leftover and compensation pools. */
  function Weights(listBase: seq<int>, parties: seq<string>, external: Dicts.Dict<int>,
                   leftover: seq<int>, compensation: seq<int>): (w: seq<int>)
    requires |listBase| == |parties| == |leftover| == |compensation|
    ensures |w| == |parties|
    ensures forall p :: 0 <= p < |parties| ==>
              w[p] == listBase[p] + Dicts.GetOr(external, parties[p], 0) + leftover[p] + compensation[p]
  {
    seq(|parties|, p requires 0 <= p < |parties| =>
      listBase[p] + Dicts.GetOr(external, parties[p], 0) + leftover[p] + compensation[p])
  }

  /** A party's list weight, stated district by district: its list base
      and external votes, its votes in every district it lost, and its
      margin plus one in every district it won. */
  lemma WeightsFromDistricts(rows: seq<seq<int>>, n: nat, listBase: seq<int>, parties: seq<string>,
                             external: Dicts.Dict<int>, p: nat)
    requires n >= 2 && Outcome.Rectangular(rows, n) && |listBase| == |parties| == n && p < n
    ensures var pools := Outcome.Accumulate(rows, n);
            var ds := Outcome.DecideAll(rows);
            Weights(listBase, parties, external, pools.leftover, pools.compensation)[p]
              == listBase[p] + Dicts.GetOr(external, parties[p], 0)
                 + Outcome.Lost(rows, ds, p) + Outcome.Bonus(ds, p)
  {
    Outcome.LeftoverIsLost(rows, n, p);
    Outcome.CompensationIsBonus(rows, n, p);
  }

  /** The votes after the tactical transfers, with normalised rule keys. */
  function Transfer(b: Ballots, c: Config): (t: Tactical.Transferred)
    requires WellShaped(b)
    ensures |t.rows| == |b.votes|
    ensures forall d :: 0 <= d < |b.votes| ==>
              |t.rows[d]| == |b.columns| && Sum(t.rows[d]) == Sum(b.votes[d])
  {
    Tactical.TransferTable(b.votes, b.districts, Parties(b.columns),
      Tactical.ToRules(Tactical.NormalizeRules(c.rules)), DistrictRules(c.districtRules))
  }

  /** Each party's fixed seats, looked up under normalised keys, 0 when
      not configured. */
  function Fixed(parties: seq<string>, c: Config): (f: seq<int>)
    ensures |f| == |parties|
  {
    DHondt.FixedSeats(parties, Dicts.NormalizeKeys(c.fixed))
  }

  /** The threshold test per party, against the normalised targets. */
  function Eligible(parties: seq<string>, c: Config): (e: seq<bool>)
    ensures |e| == |parties|
  {
    DHondt.Eligibility(parties, Dicts.NormalizeKeys(c.targets))
  }

  /** The district outcomes of the transferred table (:100-121). */
  method ResolveStage(rows: seq<seq<int>>, n: nat) returns (r: Result<Outcome.Pools, EngineError>)
    requires Outcome.Rectangular(rows, n)
    ensures r.Err? <==> |rows| > 0 && n == 1
    ensures r.Err? ==> r.error == TooFewParties
    ensures r.Ok? ==> Outcome.Resolve(rows, n) == Ok(r.value)
    ensures r.Ok? ==> |r.value.individual| == |r.value.leftover| == |r.value.compensation| == n
    ensures r.Ok? && n > 0 ==> |r.value.decisions| == |rows| && Sum(r.value.individual) == |rows|
  {
    match Outcome.Resolve(rows, n)
    case Err(_) => r := Err(TooFewParties);
    case Ok(p) => r := Ok(p);
  }

  /** No party clears the threshold. */
  predicate NoneEligible(elig: seq<bool>)
  {
    forall p :: 0 <= p < |elig| ==> !elig[p]
  }

  /** The list mandates the apportionment promises, given each party's fixed
      seats and eligibility: they add up to the larger of 93 and the fixed
      total, nobody gets fewer than its fixed seats, and a party that is not
      eligible gets exactly its fixed seats. */
  predicate ListOutcome(list: seq<int>, fixed: seq<int>, elig: seq<bool>)
  {
    && |list| == |fixed| == |elig|
    && Sum(list) == (if ListSeats > Sum(fixed) then ListSeats else Sum(fixed))
    && (forall p :: 0 <= p < |list| ==> list[p] >= fixed[p])
    && (forall p :: 0 <= p < |list| && !elig[p] ==> list[p] == fixed[p])
  }

  /** List mandates for the given weights, fixed seats and eligibility
      (:141-156): the D'Hondt apportionment over these weights. */
  method Seating(w: seq<int>, fixed: seq<int>, elig: seq<bool>) returns (r: Result<seq<int>, EngineError>)
    requires |w| == |fixed| == |elig|
    ensures r.Err? <==> DHondt.PoolSize(ListSeats, Sum(fixed)) > 0 && NoneEligible(elig)
    ensures r.Err? ==> r.error == NoEligibleParty
    ensures r.Ok? ==> DHondt.ListMandates(w, elig, fixed, ListSeats) == Ok(r.value)
    ensures r.Ok? ==> ListOutcome(r.value, fixed, elig)
  {
    match DHondt.ListMandates(w, elig, fixed, ListSeats)
    case Err(_) => r := Err(NoEligibleParty);
    case Ok(l) => r := Ok(l);
  }

  /** The inputs on which the original raises: a district to decide with a
      single party, no list base for the table after the transfers, or list
      seats to hand out and no eligible party (which includes a table
      without party columns). */
  predicate Fails(b: Ballots, c: Config)
    requires WellShaped(b)
  {
    || (|b.districts| > 0 && |b.columns| == 1)
    || b.listBase(Transfer(b, c).rows).None?
    || (DHondt.PoolSize(ListSeats, Sum(Fixed(Parties(b.columns), c))) > 0
        && NoneEligible(Eligible(Parties(b.columns), c)))
  }

  /** The mandate table as the stages produce it: the districts are decided
      on the votes after the transfers, the list votes are formed from the
      list base of that table, the external votes and the pools, the list
      mandates are the D'Hondt apportionment over those list votes, and
      each party's total is its individual plus its list mandates. */
  predicate Tallied(m: Mandates, b: Ballots, c: Config)
    requires WellShaped(b)
  {
    && m.parties == Parties(b.columns)
    && (var t := Transfer(b, c);
        var res := Outcome.Resolve(t.rows, |b.columns|);
        && res.Ok?
        && m.warnings == t.warnings
        && m.individual == res.value.individual
        && m.decisions == res.value.decisions
        && b.listBase(t.rows).Some?
        && m.weights == Weights(b.listBase(t.rows).value, m.parties, Dicts.NormalizeKeys(c.external),
                                res.value.leftover, res.value.compensation)
        && DHondt.ListMandates(m.weights, Eligible(m.parties, c), Fixed(m.parties, c), ListSeats) == Ok(m.list))
    && |m.individual| == |m.list|
    && m.total == Add(m.individual, m.list)
  }

  /** The shape of a tallied mandate table: one entry per party in every
      column, one decision per district, one individual mandate per
      district, and a district only with at least two parties. */
  lemma TalliedShape(m: Mandates, b: Ballots, c: Config)
    requires WellShaped(b) && Tallied(m, b, c)
    ensures |m.individual| == |m.list| == |m.total| == |m.weights| == |b.columns|
    ensures |m.decisions| == |b.districts|
    ensures |b.districts| > 0 ==> |b.columns| >= 2
    ensures Sum(m.individual) == |b.districts|
  {
    var t := Transfer(b, c);
    ResolvedPools(t.rows, |b.columns|, Outcome.Resolve(t.rows, |b.columns|).value);
    ListSeated(m.weights, Eligible(m.parties, c), Fixed(m.parties, c), m.list);
  }

  /** The list mandates of a tallied table add up to the larger of 93 and
      the fixed total, give every party at least its fixed seats, and give
      a party below the threshold exactly those. */
  lemma TalliedList(m: Mandates, b: Ballots, c: Config)
    requires WellShaped(b) && Tallied(m, b, c)
    ensures ListOutcome(m.list, Fixed(m.parties, c), Eligible(m.parties, c))
  {
    ListSeated(m.weights, Eligible(m.parties, c), Fixed(m.parties, c), m.list);
  }

  /** The threshold in the configuration's terms: every party gets at least
      its configured fixed seats (0 when it has none), and a party that is
      independent or whose target (0 when missing) is under 5 percent gets
      exactly those. */
  lemma TalliedThreshold(m: Mandates, b: Ballots, c: Config, p: nat)
    requires WellShaped(b) && Tallied(m, b, c) && p < |b.columns|
    ensures var fixed := Dicts.GetOr(Dicts.NormalizeKeys(c.fixed), m.parties[p], 0);
            && m.list[p] >= fixed
            && (m.parties[p] == DHondt.Independent
                || Dicts.GetOr(Dicts.NormalizeKeys(c.targets), m.parties[p], 0.0) < DHondt.Threshold
                ==> m.list[p] == fixed)
  {
    TalliedList(m, b, c);
  }

  /** Each party's total is its individual plus its list mandates, and so
      are the sums. */
  lemma TalliedTotals(m: Mandates, b: Ballots, c: Config)
    requires WellShaped(b) && Tallied(m, b, c)
    ensures |m.total| == |m.individual| == |m.list|
    ensures forall p :: 0 <= p < |m.total| ==> m.total[p] == m.individual[p] + m.list[p]
    ensures Sum(m.total) == Sum(m.individual) + Sum(m.list)
  {
    Totals(m.individual, m.list, m.total);
  }

  lemma Totals(individual: seq<int>, list: seq<int>, total: seq<int>)
    requires |individual| == |list| && total == Add(individual, list)
    ensures |total| == |individual|
    ensures forall p :: 0 <= p < |total| ==> total[p] == individual[p] + list[p]
    ensures Sum(total) == Sum(individual) + Sum(list)
  {
    SumAdd(individual, list);
  }

  /** A resolved table has one pool entry per party, and a district can
      only have been decided when there were at least two parties. */
  lemma ResolvedPools(rows: seq<seq<int>>, n: nat, pools: Outcome.Pools)
    requires Outcome.Rectangular(rows, n) && Outcome.Resolve(rows, n) == Ok(pools)
    ensures |pools.individual| == |pools.leftover| == |pools.compensation| == n
    ensures |rows| > 0 && n > 0 ==> n >= 2
    ensures n > 0 ==> |pools.decisions| == |rows| && Sum(pools.individual) == |rows|
  {
  }

  /** A successful D'Hondt step has at least one party and meets ListOutcome. */
  lemma ListSeated(w: seq<int>, elig: seq<bool>, fixed: seq<int>, list: seq<int>)
    requires |w| == |elig| == |fixed|
    requires DHondt.ListMandates(w, elig, fixed, ListSeats) == Ok(list)
    ensures |fixed| > 0 && ListOutcome(list, fixed, elig)
  {
  }

  /** Every district is decided on its votes after the transfers, so it
      has at least two parties. */
  lemma CalculatedDistricts(m: Mandates, b: Ballots, c: Config, d: nat)
    requires WellShaped(b) && Tallied(m, b, c) && d < |b.districts|
    ensures |b.columns| >= 2 && m.decisions[d] == Outcome.Decide(Transfer(b, c).rows[d])
  {
    var t := Transfer(b, c);
    TalliedShape(m, b, c);
    Outcome.ResolvedDecision(t.rows, |b.columns|, Outcome.Resolve(t.rows, |b.columns|).value, d);
  }

  /** The decisions are those of the transferred table, in district order. */
  lemma TalliedDecisions(m: Mandates, b: Ballots, c: Config)
    requires WellShaped(b) && Tallied(m, b, c) && |b.columns| >= 2
    ensures m.decisions == Outcome.DecideAll(Transfer(b, c).rows)
  {
  }

  /** A party's individual mandates are the number of districts it won
      after the transfers. */
  lemma CalculatedIndividualIsWins(m: Mandates, b: Ballots, c: Config, p: nat)
    requires WellShaped(b) && Tallied(m, b, c) && p < |b.columns|
    ensures m.individual[p] == Outcome.Wins(m.decisions, p)
  {
    var t := Transfer(b, c);
    Outcome.ResolvedPoolsMeaning(t.rows, |b.columns|, Outcome.Resolve(t.rows, |b.columns|).value, p);
  }

  /** A party's list votes are its list base (computed on the table after
      the transfers) and external votes, its votes in every district it
      lost and its margin plus one in every district it won. */
  lemma CalculatedWeights(m: Mandates, b: Ballots, c: Config, p: nat)
    requires WellShaped(b) && Tallied(m, b, c) && p < |b.columns|
    ensures var rows := Transfer(b, c).rows;
            |m.decisions| == |rows| && b.listBase(rows).Some?
            && m.weights[p] == b.listBase(rows).value[p] + Dicts.GetOr(Dicts.NormalizeKeys(c.external), m.parties[p], 0)
                               + Outcome.Lost(rows, m.decisions, p) + Outcome.Bonus(m.decisions, p)
  {
    var t := Transfer(b, c);
    Outcome.ResolvedPoolsMeaning(t.rows, |b.columns|, Outcome.Resolve(t.rows, |b.columns|).value, p);
  }

  /** With no negative list votes, the list mandates above the fixed seats
      are a highest-averages allocation of the list votes over the parties
      that clear the threshold. */
  lemma CalculatedListIsHighestAverages(m: Mandates, b: Ballots, c: Config)
    requires WellShaped(b) && Tallied(m, b, c) && DHondt.NonNegative(m.weights)
    ensures |m.weights| == |m.list| == |m.parties|
    ensures forall i, j :: 0 <= i < |m.list| && 0 <= j < |m.list| ==>
              DHondt.OutbidsAbove(m.weights, Eligible(m.parties, c), Fixed(m.parties, c), m.list, i, j)
  {
    DHondt.ListMandatesAreHighestAverages(m.weights, Eligible(m.parties, c), Fixed(m.parties, c), ListSeats);
  }

  /** The whole calculation. It fails exactly where the original raises,
      with the error of the stage that raises, and otherwise produces the
      mandate table described by Tallied. */
  method Calculate(b: Ballots, c: Config) returns (r: Result<Mandates, EngineError>)
    requires WellShaped(b)
    ensures r.Err? <==> Fails(b, c)
    ensures r.Err? ==> (r.error == TooFewParties <==> |b.districts| > 0 && |b.columns| == 1)
    ensures r.Err? ==> (r.error == NoListBase <==>
                          !(|b.districts| > 0 && |b.columns| == 1) && b.listBase(Transfer(b, c).rows).None?)
    ensures r.Ok? ==> Tallied(r.value, b, c)
  {
    var parties := Parties(b.columns);
    var t := TransferStage(b, c);
    var pools :- ResolveStage(t.rows, |b.columns|);
    var base := b.listBase(t.rows);
    if base.None? {
      return Err(NoListBase);
    }
    var w := Weights(base.value, parties, Dicts.NormalizeKeys(c.external), pools.leftover, pools.compensation);
    var list :- Seating(w, Fixed(parties, c), Eligible(parties, c));
    SumAdd(pools.individual, list);
    r := Ok(Mandates(parties, pools.individual, list, Add(pools.individual, list), w, pools.decisions, t.warnings));
  }

  /** With party columns but no districts the calculation fails: there is
      no list base. */
  lemma NoDistrictsFail(b: Ballots, c: Config)
    requires WellShaped(b) && |b.districts| == 0 && |b.columns| > 0
    ensures Fails(b, c)
  {
  }

  /** Without party columns the calculation fails in the seat loop and
      nowhere earlier: no district is decided, the list base is empty, and
      the 93 seats find no eligible party (:152). */
  lemma NoColumnsFailInSeating(b: Ballots, c: Config)
    requires WellShaped(b) && |b.columns| == 0
    ensures Fails(b, c)
    ensures !(|b.districts| > 0 && |b.columns| == 1)
    ensures b.listBase(Transfer(b, c).rows).Some?
  {
  }

  /** When no district casts a vote the calculation fails, whatever the
      transfers: they keep every district's total at zero. */
  lemma ZeroVotesFail(b: Ballots, c: Config)
    requires WellShaped(b) && |b.columns| > 0
    requires forall d :: 0 <= d < |b.votes| ==> Sum(b.votes[d]) == 0
    ensures Fails(b, c)
  {
  }

  /** The tactical transfers with normalised rule keys. */
  method TransferStage(b: Ballots, c: Config) returns (t: Tactical.Transferred)
    requires WellShaped(b)
    ensures t == Transfer(b, c)
    ensures |t.rows| == |b.votes| && Outcome.Rectangular(t.rows, |b.columns|)
    ensures forall d :: 0 <= d < |b.votes| ==> Sum(t.rows[d]) == Sum(b.votes[d])
  {
    t := Transfer(b, c);
  }
}

=== FILE: names.dfy ===
/** Canonical party names: every configuration key and table column is passed
    through Normalize before any lookup, so "Fidesz (%)" and " Fidesz " key
    the same party. */
module Names {

  /** The characters Python's str.strip() removes by default (str.isspace). */
  predicate IsSpace(c: char)
  {
    || c == ' '
    || ('\U{9}' <= c <= '\U{d}')
    || ('\U{1c}' <= c <= '\U{1f}')
    || c == '\U{85}'
    || c == '\U{a0}'
    || c == '\U{1680}'
    || ('\U{2000}' <= c <= '\U{200a}')
    || c == '\U{2028}'
    || c == '\U{2029}'
    || c == '\U{202f}'
    || c == '\U{205f}'
    || c == '\U{3000}'
  }

  predicate AllSpace(s: string)
  {
    forall i :: 0 <= i < |s| ==> IsSpace(s[i])
  }

  /** A string with no whitespace at either end (possibly empty). */
  predicate Trimmed(s: string)
  {
    |s| > 0 ==> !IsSpace(s[0]) && !IsSpace(s[|s| - 1])
  }

  /** The decoration carried by percentage-typed column headers. */
  const PercentSuffix: string := " (%)"

  predicate EndsWith(s: string, suffix: string)
  {
    |suffix| <= |s| && s[|s| - |suffix|..] == suffix
  }

  /** Number of leading whitespace characters. */
  function LeadLen(s: string): (n: nat)
    ensures n <= |s| && AllSpace(s[..n])
    ensures n < |s| ==> !IsSpace(s[n])
  {
    if |s| > 0 && IsSpace(s[0]) then
      var n := 1 + LeadLen(s[1..]);
      assert s[..n] == [s[0]] + s[1..][..n - 1];
      n
    else 0
  }

  /** Number of trailing whitespace characters. */
  function TrailLen(s: string): (n: nat)
    ensures n <= |s| && AllSpace(s[|s| - n..])
    ensures n < |s| ==> !IsSpace(s[|s| - 1 - n])
  {
    if |s| > 0 && IsSpace(s[|s| - 1]) then
      var n := 1 + TrailLen(s[..|s| - 1]);
      assert s[|s| - n..] == s[..|s| - 1][|s| - n..] + [s[|s| - 1]];
      n
    else 0
  }

  /** Python's str.strip(): drops the leading and the trailing whitespace;
      what remains is the slice of s between them, and it neither starts
      nor ends with whitespace. */
  function Strip(s: string): (r: string)
    ensures Trimmed(r)
    ensures LeadLen(s) + |r| + TrailLen(s) == |s| || (r == [] && AllSpace(s))
    ensures r == s[LeadLen(s)..LeadLen(s) + |r|]
  {
    var l := LeadLen(s);
    if l == |s| then
      assert s[..l] == s;
      []
    else
      var t := TrailLen(s);
      s[l..|s| - t]
  }

  /** Leading whitespace of a padded string is exactly the padding. */
  lemma {:induction false} LeadLenPadded(lead: string, rest: string)
    requires AllSpace(lead) && |rest| > 0 && !IsSpace(rest[0])
    ensures LeadLen(lead + rest) == |lead|
  {
    if |lead| > 0 {
      assert (lead + rest)[1..] == lead[1..] + rest;
      assert IsSpace(lead[0]);
      LeadLenPadded(lead[1..], rest);
    } else {
      assert lead + rest == rest;
    }
  }

  /** Trailing whitespace of a padded string is exactly the padding. */
  lemma {:induction false} TrailLenPadded(rest: string, trail: string)
    requires AllSpace(trail) && |rest| > 0 && !IsSpace(rest[|rest| - 1])
    ensures TrailLen(rest + trail) == |trail|
  {
    if |trail| > 0 {
      assert (rest + trail)[..|rest + trail| - 1] == rest + trail[..|trail| - 1];
      assert IsSpace(trail[|trail| - 1]);
      TrailLenPadded(rest, trail[..|trail| - 1]);
    } else {
      assert rest + trail == rest;
    }
  }

  /** Party name normalisation (kalkulator/mandatumkalkulator.py:3-10):
      strip, then drop one trailing percent decoration if present. */
  function Normalize(name: string): (r: string)
    ensures EndsWith(Strip(name), PercentSuffix) ==> r + PercentSuffix == Strip(name)
    ensures !EndsWith(Strip(name), PercentSuffix) ==> r == Strip(name)
  {
    var s := Strip(name);
    if EndsWith(s, PercentSuffix) then s[..|s| - |PercentSuffix|] else s
  }

  /** Whitespace around a trimmed core is exactly what Strip removes. */
  lemma StripPadded(lead: string, core: string, trail: string)
    requires AllSpace(lead) && AllSpace(trail) && Trimmed(core) && |core| > 0
    ensures Strip(lead + core + trail) == core
  {
    var s := lead + core + trail;
    assert s == lead + (core + trail);
    LeadLenPadded(lead, core + trail);
    assert s == (lead + core) + trail;
    TrailLenPadded(lead + core, trail);
    assert s[|lead|] == core[0];
    assert !AllSpace(s);
    assert s[|lead|..|lead| + |core|] == core;
  }

  /** A decorated canonical name, with any surrounding whitespace, normalises
      back to the canonical name: the header "Fidesz (%)" and the key
      "Fidesz" meet. */
  lemma NormalizeDecorated(lead: string, name: string, trail: string)
    requires AllSpace(lead) && AllSpace(trail) && Trimmed(name) && |name| > 0
    ensures Normalize(lead + name + PercentSuffix + trail) == name
  {
    var core := name + PercentSuffix;
    assert lead + name + PercentSuffix + trail == lead + core + trail;
    StripPadded(lead, core, trail);
    assert EndsWith(core, PercentSuffix);
    assert core[..|core| - |PercentSuffix|] == name;
  }

  /** A canonical name (trimmed, undecorated) is left as it is. */
  lemma NormalizeCanonical(name: string)
    requires Trimmed(name) && !EndsWith(name, PercentSuffix)
    ensures Normalize(name) == name
  {
    if |name| > 0 {
      assert name == [] + name + [];
      StripPadded([], name, []);
    } else {
      assert Strip(name) == name;
    }
  }

  /** Only one decoration is removed per call, and the whitespace that
      preceded it stays: Normalize is not idempotent on such inputs. */
  lemma NormalizeKeepsInnerSpace()
    ensures Normalize("A  (%)") == "A "
  {
    var s := "A  (%)";
    assert s == [] + s + [];
    StripPadded([], s, []);
    assert EndsWith(s, PercentSuffix);
    assert s[..|s| - 4] == "A ";
  }
}

=== FILE: outcome.dfy ===
/** Outcome resolution (kalkulator/mandatumkalkulator.py:100-121): in each
    district the party with the most votes wins the individual seat; the
    winner's compensation pool grows by its margin plus one and every other
    party's leftover pool grows by its own votes. */
module Outcome {
  import opened Results
  import opened Seqs

  /** The winner of a district: the first position holding the maximum. */
  function ArgMax(row: seq<int>): (w: nat)
    requires |row| > 0
    ensures w < |row|
    ensures forall j :: 0 <= j < |row| ==> row[j] <= row[w]
    ensures forall j :: 0 <= j < w ==> row[j] < row[w]
  {
    if |row| == 1 then 0
    else
      var w := ArgMax(row[..|row| - 1]);
      if row[|row| - 1] > row[w] then |row| - 1 else w
  }

  /** Position of the best vote count among the parties other than w; the
      runner-up's votes are the votes found there. */
  function RunnerUp(row: seq<int>, w: nat): (r: nat)
    requires |row| >= 2 && w < |row|
    ensures r < |row| && r != w
    ensures forall j :: 0 <= j < |row| && j != w ==> row[j] <= row[r]
  {
    BestExcept(row, w, |row|)
  }

  /** Best position among the first k, skipping w. */
  function BestExcept(row: seq<int>, w: nat, k: nat): (r: nat)
    requires w < |row| && k <= |row| && (k >= 2 || (k == 1 && w != 0))
    ensures r < k && r != w
    ensures forall j :: 0 <= j < k && j != w ==> row[j] <= row[r]
  {
    if k - 1 == w then BestExcept(row, w, k - 1)
    else if k == 1 || (k == 2 && w == 0) then k - 1
    else
      var r := BestExcept(row, w, k - 1);
      if row[k - 1] > row[r] then k - 1 else r
  }

  /** One district's outcome: the winning column and the vote margin. */
  datatype Decision = Decision(winner: nat, margin: int)

  /** The winner has at least as many votes as anyone, strictly more than any
      party before it; the margin is the gap to the best other party, so it
      is never negative. */
  function Decide(row: seq<int>): (d: Decision)
    requires |row| >= 2
    ensures d.winner < |row|
    ensures forall j :: 0 <= j < |row| ==> row[j] <= row[d.winner]
    ensures forall j :: 0 <= j < d.winner ==> row[j] < row[d.winner]
    ensures d.margin >= 0
    ensures forall j :: 0 <= j < |row| && j != d.winner ==> row[j] <= row[d.winner] - d.margin
    ensures row[d.winner] - d.margin == row[RunnerUp(row, d.winner)]
  {
    var w := ArgMax(row);
    Decision(w, row[w] - row[RunnerUp(row, w)])
  }

  /** The per-party accumulators of :101-105 and the per-district outcomes. */
  datatype Pools = Pools(individual: seq<int>, leftover: seq<int>, compensation: seq<int>, decisions: seq<Decision>)

  predicate Rectangular(rows: seq<seq<int>>, n: nat)
  {
    forall d :: 0 <= d < |rows| ==> |rows[d]| == n
  }

  /** Every party but the winner adds its votes to its leftover pool (:119-121). */
  function CreditLosers(pool: seq<int>, row: seq<int>, w: nat): (r: seq<int>)
    requires |pool| == |row| && w < |row|
    ensures |r| == |row|
    ensures forall j :: 0 <= j < |row| ==> r[j] == pool[j] + (if j == w then 0 else row[j])
    ensures Sum(r) == Sum(pool) + Sum(row) - row[w]
  {
    var r := seq(|row|, j requires 0 <= j < |row| => if j == w then pool[j] else pool[j] + row[j]);
    var gained := row[w := 0];
    assert r == Add(pool, gained);
    SumAdd(pool, gained);
    SumUpdate(row, w, 0);
    r
  }

  /** One iteration of the loop at :107-121. */
  function Record(p: Pools, row: seq<int>): (q: Pools)
    requires |row| >= 2
    requires |p.individual| == |p.leftover| == |p.compensation| == |row|
    ensures |q.individual| == |q.leftover| == |q.compensation| == |row|
    ensures q.decisions == p.decisions + [Decide(row)]
    ensures forall j {:trigger q.individual[j]} :: 0 <= j < |row| ==>
              q.individual[j] == p.individual[j] + (if j == Decide(row).winner then 1 else 0)
    ensures forall j {:trigger q.leftover[j]} :: 0 <= j < |row| ==>
              q.leftover[j] == p.leftover[j] + (if j == Decide(row).winner then 0 else row[j])
    ensures forall j {:trigger q.compensation[j]} :: 0 <= j < |row| ==>
              q.compensation[j] == p.compensation[j] + (if j == Decide(row).winner then Decide(row).margin + 1 else 0)
    ensures Sum(q.individual) == Sum(p.individual) + 1
    ensures Sum(q.leftover) == Sum(p.leftover) + Sum(row) - row[Decide(row).winner]
  {
    var d := Decide(row);
    var w := d.winner;
    SumUpdate(p.individual, w, p.individual[w] + 1);
    Pools(p.individual[w := p.individual[w] + 1],
          CreditLosers(p.leftover, row, w),
          p.compensation[w := p.compensation[w] + d.margin + 1],
          p.decisions + [d])
  }

  /** The loop over all districts, in table order. */
  function Accumulate(rows: seq<seq<int>>, n: nat): (p: Pools)
    requires n >= 2 && Rectangular(rows, n)
    ensures |p.individual| == |p.leftover| == |p.compensation| == n
    ensures |p.decisions| == |rows|
    ensures p.decisions == DecideAll(rows)
    ensures Sum(p.individual) == |rows|
  {
    if |rows| == 0 then
      SumZeros(n);
      Pools(Zeros(n), Zeros(n), Zeros(n), [])
    else
      Record(Accumulate(rows[..|rows| - 1], n), rows[|rows| - 1])
  }

  /** The decision of every district, in table order. */
  function DecideAll(rows: seq<seq<int>>): (ds: seq<Decision>)
    requires forall d :: 0 <= d < |rows| ==> |rows[d]| >= 2
    ensures |ds| == |rows|
  {
    if |rows| == 0 then []
    else DecideAll(rows[..|rows| - 1]) + [Decide(rows[|rows| - 1])]
  }

  /** Each district is decided on its own votes alone. */
  lemma {:induction false} DecideAllPointwise(rows: seq<seq<int>>, d: nat)
    requires forall e :: 0 <= e < |rows| ==> |rows[e]| >= 2
    requires d < |rows|
    ensures DecideAll(rows)[d] == Decide(rows[d])
  {
    var k := |rows| - 1;
    if d < k {
      DecideAllPointwise(rows[..k], d);
    }
  }

  datatype ResolveError = TooFewParties

  /** The resolution stage. A district with a single party fails: the
      runner-up is the maximum of an empty set, NaN, and converting the
      compensation to an integer rejects it (:109, :116). With no party
      columns the projected vote table has no rows, so the loop decides
      nothing. Otherwise every district is decided and the pools are filled. */
  function Resolve(rows: seq<seq<int>>, n: nat): (r: Result<Pools, ResolveError>)
    requires Rectangular(rows, n)
    ensures r.Err? <==> |rows| > 0 && n == 1
    ensures r.Ok? ==> |r.value.individual| == |r.value.leftover| == |r.value.compensation| == n
    ensures r.Ok? && n >= 2 ==> r.value == Accumulate(rows, n)
    ensures r.Ok? && n > 0 ==> |r.value.decisions| == |rows| && Sum(r.value.individual) == |rows|
    ensures r.Ok? && n < 2 ==> r.value.decisions == []
    ensures r.Ok? && n < 2 ==> forall p :: 0 <= p < n ==>
              r.value.individual[p] == 0 && r.value.leftover[p] == 0 && r.value.compensation[p] == 0
  {
    if n >= 2 then Ok(Accumulate(rows, n))
    else if |rows| > 0 && n == 1 then Err(TooFewParties)
    else
      SumZeros(n);
      Ok(Pools(Zeros(n), Zeros(n), Zeros(n), []))
  }

  /** Every decision of a resolved table is that of the district at the
      same position, decided on its own votes, which takes at least two
      parties. */
  lemma ResolvedDecision(rows: seq<seq<int>>, n: nat, pools: Pools, d: nat)
    requires Rectangular(rows, n) && Resolve(rows, n) == Ok(pools) && d < |pools.decisions|
    ensures n >= 2 && |pools.decisions| == |rows| && pools.decisions[d] == Decide(rows[d])
  {
    DecideAllPointwise(rows, d);
  }

  /** The pools of a resolved table, each against its reference definition
      over the decisions. */
  lemma ResolvedPoolsMeaning(rows: seq<seq<int>>, n: nat, pools: Pools, p: nat)
    requires Rectangular(rows, n) && Resolve(rows, n) == Ok(pools) && p < n
    ensures |pools.decisions| == |rows| && |pools.individual| == |pools.leftover| == |pools.compensation| == n
    ensures pools.individual[p] == Wins(pools.decisions, p)
    ensures pools.leftover[p] == Lost(rows, pools.decisions, p)
    ensures pools.compensation[p] == Bonus(pools.decisions, p)
  {
    if n >= 2 {
      IndividualIsWins(rows, n, p);
      LeftoverIsLost(rows, n, p);
      CompensationIsBonus(rows, n, p);
    }
  }

  // Reference definitions: each pool as a sum over districts of what that
  // district contributes to it.

  /** Number of districts won by party p. */
  function Wins(ds: seq<Decision>, p: nat): nat
  {
    if |ds| == 0 then 0
    else Wins(ds[..|ds| - 1], p) + (if ds[|ds| - 1].winner == p then 1 else 0)
  }

  /** Votes of party p in the districts it did not win. */
  function Lost(rows: seq<seq<int>>, ds: seq<Decision>, p: nat): int
    requires |ds| == |rows|
  {
    if |rows| == 0 then 0
    else
      var k := |rows| - 1;
      Lost(rows[..k], ds[..k], p) + (if ds[k].winner == p || p >= |rows[k]| then 0 else rows[k][p])
  }

  /** Margin plus one, summed over the districts party p won. */
  function Bonus(ds: seq<Decision>, p: nat): int
  {
    if |ds| == 0 then 0
    else Bonus(ds[..|ds| - 1], p) + (if ds[|ds| - 1].winner == p then ds[|ds| - 1].margin + 1 else 0)
  }

  /** Individual mandates count the districts won. */
  lemma {:induction false} IndividualIsWins(rows: seq<seq<int>>, n: nat, p: nat)
    requires n >= 2 && Rectangular(rows, n) && p < n
    ensures Accumulate(rows, n).individual[p] == Wins(Accumulate(rows, n).decisions, p)
  {
    if |rows| > 0 {
      var k := |rows| - 1;
      IndividualIsWins(rows[..k], n, p);
      RecordWins(Accumulate(rows[..k], n), rows[k], p);
    }
  }

  /** One district changes the individual mandates and the win count alike. */
  lemma RecordWins(prev: Pools, row: seq<int>, p: nat)
    requires |row| >= 2 && p < |row|
    requires |prev.individual| == |prev.leftover| == |prev.compensation| == |row|
    ensures Wins(Record(prev, row).decisions, p) - Record(prev, row).individual[p]
         == Wins(prev.decisions, p) - prev.individual[p]
  {
    var q := Record(prev, row);
    assert q.decisions[..|prev.decisions|] == prev.decisions;
  }

  /** The leftover pool sums a party's votes over the districts it lost. */
  lemma {:induction false} LeftoverIsLost(rows: seq<seq<int>>, n: nat, p: nat)
    requires n >= 2 && Rectangular(rows, n) && p < n
    ensures Accumulate(rows, n).leftover[p] == Lost(rows, Accumulate(rows, n).decisions, p)
  {
    if |rows| > 0 {
      var k := |rows| - 1;
      LeftoverIsLost(rows[..k], n, p);
      RecordLost(rows, Accumulate(rows[..k], n), p);
    }
  }

  /** One district changes the leftover pool and the lost votes alike. */
  lemma RecordLost(rows: seq<seq<int>>, prev: Pools, p: nat)
    requires |rows| > 0 && |rows[|rows| - 1]| >= 2 && p < |rows[|rows| - 1]|
    requires |prev.decisions| == |rows| - 1
    requires |prev.individual| == |prev.leftover| == |prev.compensation| == |rows[|rows| - 1]|
    ensures var k := |rows| - 1;
            Lost(rows, Record(prev, rows[k]).decisions, p) - Record(prev, rows[k]).leftover[p]
              == Lost(rows[..k], prev.decisions, p) - prev.leftover[p]
  {
    var k := |rows| - 1;
    var q := Record(prev, rows[k]);
    assert q.decisions[..k] == prev.decisions;
  }

  /** The compensation pool sums margin + 1 over the districts a party won. */
  lemma {:induction false} CompensationIsBonus(rows: seq<seq<int>>, n: nat, p: nat)
    requires n >= 2 && Rectangular(rows, n) && p < n
    ensures Accumulate(rows, n).compensation[p] == Bonus(Accumulate(rows, n).decisions, p)
  {
    if |rows| > 0 {
      var k := |rows| - 1;
      CompensationIsBonus(rows[..k], n, p);
      RecordBonus(Accumulate(rows[..k], n), rows[k], p);
    }
  }

  /** One district changes the compensation pool and the bonus alike. */
  lemma RecordBonus(prev: Pools, row: seq<int>, p: nat)
    requires |row| >= 2 && p < |row|
    requires |prev.individual| == |prev.leftover| == |prev.compensation| == |row|
    ensures Bonus(Record(prev, row).decisions, p) - Record(prev, row).compensation[p]
         == Bonus(prev.decisions, p) - prev.compensation[p]
  {
    var q := Record(prev, row);
    assert q.decisions[..|prev.decisions|] == prev.decisions;
  }

  /** Leftover and winning votes partition the votes cast: summed over all
      parties, the leftover pools plus the winners' own votes equal the
      total number of votes in the table. */
  lemma {:induction false} LeftoverConservation(rows: seq<seq<int>>, n: nat)
    requires n >= 2 && Rectangular(rows, n)
    ensures Sum(Accumulate(rows, n).leftover) + WinnerVotes(rows) == TotalVotes(rows)
  {
    if |rows| == 0 {
      SumZeros(n);
    } else {
      var k := |rows| - 1;
      var prev := Accumulate(rows[..k], n);
      assert Accumulate(rows, n) == Record(prev, rows[k]);
      LeftoverConservation(rows[..k], n);
    }
  }

  /** Votes cast for the winner of each district, summed. */
  function WinnerVotes(rows: seq<seq<int>>): int
    requires forall d :: 0 <= d < |rows| ==> |rows[d]| >= 2
  {
    if |rows| == 0 then 0
    else WinnerVotes(rows[..|rows| - 1]) + rows[|rows| - 1][Decide(rows[|rows| - 1]).winner]
  }

  /** All votes in the table. */
  function TotalVotes(rows: seq<seq<int>>): int
  {
    if |rows| == 0 then 0 else TotalVotes(rows[..|rows| - 1]) + Sum(rows[|rows| - 1])
  }
}

=== FILE: projection.dfy ===
/** Projection of district vote shares from a reference election onto
    national target results, and the overflow correction that caps every
    district's projected shares at 100 percent. Shares are exact reals; the
    floating-point evaluation of the original is not modelled. */
module Projection {
  import opened Results
  import opened Seqs

  /** A district x party table of percentages. */
  predicate Table(shares: seq<seq<real>>, n: nat)
  {
    forall d :: 0 <= d < |shares| ==> |shares[d]| == n
  }

  /** Total population, the denominator of the population-weighted mean. */
  function Population(pops: seq<int>): int
  {
    Sum(pops)
  }

  /** Party p's column of the table. */
  function Column(shares: seq<seq<real>>, n: nat, p: nat): (c: seq<real>)
    requires Table(shares, n) && p < n
    ensures |c| == |shares|
    ensures forall d :: 0 <= d < |shares| ==> c[d] == shares[d][p]
  {
    seq(|shares|, d requires 0 <= d < |shares| => shares[d][p])
  }

  /** Each district's population times a per-district value. */
  function Weighted(pops: seq<int>, col: seq<real>): (w: seq<real>)
    requires |pops| == |col|
    ensures |w| == |col|
    ensures forall d :: 0 <= d < |col| ==> w[d] == pops[d] as real * col[d]
  {
    seq(|col|, d requires 0 <= d < |col| => pops[d] as real * col[d])
  }

  /** The reference election's national share of a party: the sum of
      population * share / 100 over districts, divided by the total
      population, times 100. */
  function NationalShare(pops: seq<int>, col: seq<real>): real
    requires |pops| == |col| && Population(pops) != 0
  {
    SumReal(seq(|col|, d requires 0 <= d < |col| => pops[d] as real * col[d] / 100.0))
      / Population(pops) as real * 100.0
  }

  /** The national share is the population-weighted mean of the column. */
  lemma NationalShareIsWeightedMean(pops: seq<int>, col: seq<real>)
    requires |pops| == |col| && Population(pops) != 0
    ensures NationalShare(pops, col) * Population(pops) as real == SumReal(Weighted(pops, col))
  {
    var hundredth := seq(|col|, d requires 0 <= d < |col| => pops[d] as real * col[d] / 100.0);
    SumRealScale(Weighted(pops, col), 1.0 / 100.0, hundredth);
  }

  datatype ProjectionError = NoPopulation | ZeroBaseline(party: nat)

  /** The first party whose reference national share is zero, if any. */
  function FirstZero(baselines: seq<real>): (r: Option<nat>)
    ensures r.None? <==> forall p :: 0 <= p < |baselines| ==> baselines[p] != 0.0
    ensures r.Some? ==> r.value < |baselines| && baselines[r.value] == 0.0
                        && forall p :: 0 <= p < r.value ==> baselines[p] != 0.0
  {
    if |baselines| == 0 then None
    else if baselines[0] == 0.0 then Some(0)
    else match FirstZero(baselines[1..])
      case None => None
      case Some(p) => Some(p + 1)
  }

  /** Every party's reference national share. Without parties there is no
      share to take, so the population need not be positive. */
  function Baselines(pops: seq<int>, shares: seq<seq<real>>, n: nat): (b: seq<real>)
    requires Table(shares, n) && |pops| == |shares| && (n > 0 ==> Population(pops) != 0)
    ensures |b| == n
    ensures forall p :: 0 <= p < n ==> b[p] == NationalShare(pops, Column(shares, n, p))
  {
    seq(n, p requires 0 <= p < n => NationalShare(pops, Column(shares, n, p)))
  }

  /** Projected district shares: a district's share of a party, divided by
      the party's reference national share, times the party's national
      target (a party with no target projects to 0). The original divides
      by the baseline without a check and obtains infinities or NaN when a
      baseline, or the population of a table with parties, is zero; here
      those inputs are errors. A table without parties divides nothing and
      projects to empty rows whatever the population. */
  function Project(pops: seq<int>, shares: seq<seq<real>>, n: nat, targets: seq<real>)
    : (r: Result<seq<seq<real>>, ProjectionError>)
    requires Table(shares, n) && |pops| == |shares| && |targets| == n
    ensures r.Err? <==> (n > 0 && Population(pops) == 0) || exists p :: 0 <= p < n && Baselines(pops, shares, n)[p] == 0.0
    ensures r.Ok? ==> |r.value| == |shares| && Table(r.value, n)
    ensures r.Ok? ==> forall d, p :: 0 <= d < |shares| && 0 <= p < n ==>
                        r.value[d][p] == shares[d][p] * (targets[p] / Baselines(pops, shares, n)[p])
  {
    if n > 0 && Population(pops) == 0 then Err(NoPopulation)
    else
      var b := Baselines(pops, shares, n);
      match FirstZero(b)
      case Some(p) => Err(ZeroBaseline(p))
      case None => Ok(Rescale(shares, n, b, targets))
  }

  /** Every district's share of party p multiplied by targets[p] / b[p]. */
  function Rescale(shares: seq<seq<real>>, n: nat, b: seq<real>, targets: seq<real>): (r: seq<seq<real>>)
    requires Table(shares, n) && |b| == |targets| == n
    requires forall p :: 0 <= p < n ==> b[p] != 0.0
    ensures |r| == |shares| && Table(r, n)
    ensures forall d, p :: 0 <= d < |shares| && 0 <= p < n ==> r[d][p] == shares[d][p] * (targets[p] / b[p])
  {
    seq(|shares|, d requires 0 <= d < |shares| =>
      seq(n, p requires 0 <= p < n => shares[d][p] * (targets[p] / b[p])))
  }

  /** Projection calibrates each party to its target: the population-weighted
      mean of the projected column is exactly the party's national target. */
  lemma ProjectionMeetsTarget(pops: seq<int>, shares: seq<seq<real>>, n: nat,
                              targets: seq<real>, p: nat)
    requires Table(shares, n) && |pops| == |shares| && |targets| == n && p < n
    requires Project(pops, shares, n, targets).Ok?
    ensures var proj := Project(pops, shares, n, targets).value;
            SumReal(Weighted(pops, Column(proj, n, p))) == targets[p] * Population(pops) as real
  {
    ProjectOk(pops, shares, n, targets);
    RescaleMeetsTarget(pops, shares, n, targets, p);
  }

  /** The rescaling by the baselines calibrates party p to its target. */
  lemma RescaleMeetsTarget(pops: seq<int>, shares: seq<seq<real>>, n: nat, targets: seq<real>, p: nat)
    requires Table(shares, n) && |pops| == |shares| && |targets| == n && p < n
    requires Population(pops) != 0
    requires forall q :: 0 <= q < n ==> Baselines(pops, shares, n)[q] != 0.0
    ensures var proj := Rescale(shares, n, Baselines(pops, shares, n), targets);
            SumReal(Weighted(pops, Column(proj, n, p))) == targets[p] * Population(pops) as real
  {
    var b := Baselines(pops, shares, n);
    var proj := Rescale(shares, n, b, targets);
    var col := Column(shares, n, p);
    var projected := Column(proj, n, p);
    var c := targets[p] / b[p];
    forall d | 0 <= d < |col| ensures projected[d] == col[d] * c {
      assert projected[d] == proj[d][p] && col[d] == shares[d][p];
    }
    Calibrated(pops, col, projected, b[p], targets[p]);
  }

  /** A successful projection is the rescaling by the non-zero baselines. */
  lemma ProjectOk(pops: seq<int>, shares: seq<seq<real>>, n: nat, targets: seq<real>)
    requires Table(shares, n) && |pops| == |shares| && |targets| == n
    requires Project(pops, shares, n, targets).Ok?
    ensures n > 0 ==> Population(pops) != 0
    ensures forall p :: 0 <= p < n ==> Baselines(pops, shares, n)[p] != 0.0
    ensures Project(pops, shares, n, targets).value == Rescale(shares, n, Baselines(pops, shares, n), targets)
  {
  }

  /** A column that is the reference column rescaled by target / baseline has
      population-weighted sum target * population. */
  lemma Calibrated(pops: seq<int>, col: seq<real>, projected: seq<real>, b: real, t: real)
    requires |pops| == |col| == |projected| && Population(pops) != 0
    requires b == NationalShare(pops, col) && b != 0.0
    requires forall d :: 0 <= d < |col| ==> projected[d] == col[d] * (t / b)
    ensures SumReal(Weighted(pops, projected)) == t * Population(pops) as real
  {
    var c := t / b;
    WeightedScale(pops, col, c, projected);
    NationalShareIsWeightedMean(pops, col);
    Cancel(SumReal(Weighted(pops, col)), b, Population(pops) as real, t);
  }

  lemma Cancel(sum: real, b: real, total: real, t: real)
    requires b != 0.0 && b * total == sum
    ensures sum * (t / b) == t * total
  {
  }

  /** Scaling a column scales its population-weighted sum. */
  lemma WeightedScale(pops: seq<int>, col: seq<real>, c: real, scaled: seq<real>)
    requires |pops| == |col| == |scaled|
    requires forall d :: 0 <= d < |col| ==> scaled[d] == col[d] * c
    ensures SumReal(Weighted(pops, scaled)) == SumReal(Weighted(pops, col)) * c
  {
    var w := Weighted(pops, col);
    var ws := Weighted(pops, scaled);
    forall d | 0 <= d < |col| ensures ws[d] == w[d] * c {
      assert pops[d] as real * (col[d] * c) == (pops[d] as real * col[d]) * c;
    }
    SumRealScale(w, c, ws);
  }

  /** The overflow correction of one district: a row whose shares add up to
      more than 100 is multiplied by 100 / sum; any other row is kept. */
  function CorrectOverflow(row: seq<real>): (r: seq<real>)
    ensures |r| == |row|
    ensures SumReal(row) <= 100.0 ==> r == row
    ensures SumReal(row) > 100.0 ==> forall i :: 0 <= i < |row| ==> r[i] == row[i] * (100.0 / SumReal(row))
  {
    var total := SumReal(row);
    if total > 100.0 then seq(|row|, i requires 0 <= i < |row| => row[i] * (100.0 / total))
    else row
  }

  /** After correction no district's shares add up to more than 100, and an
      overflowing district adds up to exactly 100. */
  lemma CorrectedSum(row: seq<real>)
    ensures SumReal(CorrectOverflow(row)) <= 100.0
    ensures SumReal(row) > 100.0 ==> SumReal(CorrectOverflow(row)) == 100.0
  {
    var total := SumReal(row);
    if total > 100.0 {
      SumRealScale(row, 100.0 / total, CorrectOverflow(row));
      assert total * (100.0 / total) == 100.0;
    }
  }

  /** Scaling by a positive factor keeps the order of any two shares, in
      both directions, and keeps ties. */
  lemma CorrectionKeepsOrder(row: seq<real>, i: nat, j: nat)
    requires i < |row| && j < |row|
    ensures row[i] < row[j] <==> CorrectOverflow(row)[i] < CorrectOverflow(row)[j]
    ensures row[i] == row[j] <==> CorrectOverflow(row)[i] == CorrectOverflow(row)[j]
  {
    var total := SumReal(row);
    if total > 100.0 {
      var f := 100.0 / total;
      assert f > 0.0;
      ScaleKeepsOrder(row[i], row[j], f);
    }
  }

  /** Multiplying by a positive factor keeps order and ties. */
  lemma ScaleKeepsOrder(x: real, y: real, f: real)
    requires f > 0.0
    ensures x < y <==> x * f < y * f
    ensures x == y <==> x * f == y * f
  {
    assert y * f - x * f == (y - x) * f;
  }

  /** The correction is idempotent: a corrected district no longer
      overflows, so correcting it again keeps it. */
  lemma CorrectionIdempotent(row: seq<real>)
    ensures CorrectOverflow(CorrectOverflow(row)) == CorrectOverflow(row)
  {
    CorrectedSum(row);
  }
}

=== FILE: rounding.dfy ===
/** Python's rounding to an integer: the nearest integer, halves to the
    even neighbour (banker's rounding). Floating-point error is not modelled; the
    argument is the exact real product. */
module Rounding {

  function RoundHalfEven(x: real): (r: int)
    ensures x - 0.5 <= r as real <= x + 0.5
    ensures (r as real - x == 0.5 || x - r as real == 0.5) ==> r % 2 == 0
  {
    var f := x.Floor;
    var d := x - f as real;
    if d < 0.5 then f
    else if d > 0.5 then f + 1
    else if f % 2 == 0 then f else f + 1
  }

  /** The two clauses above pin the result down: no other integer is within
      one half of x and even on a tie. */
  lemma RoundHalfEvenUnique(x: real, n: int)
    requires x - 0.5 <= n as real <= x + 0.5
    requires (n as real - x == 0.5 || x - n as real == 0.5) ==> n % 2 == 0
    ensures n == RoundHalfEven(x)
  {
  }

  /** Rounding a value between 0 and an integer v stays between 0 and v, so a
      transfer of a rounded fraction of v votes never exceeds the source's votes. */
  lemma RoundWithin(x: real, v: int)
    requires 0.0 <= x <= v as real
    ensures 0 <= RoundHalfEven(x) <= v
  {
  }

  /** A fraction between 0 and 1 of a non-negative amount lies between 0
      and the amount. */
  lemma ScaleWithin(a: real, f: real)
    requires 0.0 <= a && 0.0 <= f <= 1.0
    ensures 0.0 <= a * f <= a
  {
    assert a * (1.0 - f) >= 0.0;
  }

  /** A rounded fraction f in [0, 1] of an integer v lies between 0 and v,
      and is 0 when f is 0. */
  lemma RoundScaled(v: int, f: real)
    ensures 0 <= v && 0.0 <= f <= 1.0 ==> 0 <= RoundHalfEven(v as real * f) <= v
    ensures f == 0.0 ==> RoundHalfEven(v as real * f) == 0
  {
    var x := v as real * f;
    if 0 <= v && 0.0 <= f <= 1.0 {
      ScaleWithin(v as real, f);
      RoundWithin(x, v);
    }
    if f == 0.0 {
      assert x == 0.0;
      RoundWithin(x, 0);
    }
  }
}

=== FILE: seqs.dfy ===
/** Failure-compatible result and option types shared by every stage. */
module Results {

  datatype Option<+T> = None | Some(value: T)

  datatype Result<+T, +E> = Ok(value: T) | Err(error: E) {
    predicate IsFailure() {
      Err?
    }

    function PropagateFailure<U>(): Result<U, E>
      requires Err?
    {
      Err(error)
    }

    function Extract(): T
      requires Ok?
    {
      value
    }
  }
}

/** Sums over integer and real sequences, and the facts about them the
    bookkeeping proofs rely on. */
module Seqs {

  /** Sum of an integer sequence, accumulated from the front as a loop would. */
  function Sum(s: seq<int>): int
  {
    if |s| == 0 then 0 else Sum(s[..|s| - 1]) + s[|s| - 1]
  }

  /** Sum of a real sequence. */
  function SumReal(s: seq<real>): real
  {
    if |s| == 0 then 0.0 else SumReal(s[..|s| - 1]) + s[|s| - 1]
  }

  /** A sequence of n zeros: the initial value of every per-party counter. */
  function Zeros(n: nat): (z: seq<int>)
    ensures |z| == n
    ensures forall i :: 0 <= i < n ==> z[i] == 0
  {
    seq(n, _ => 0)
  }

  /** Pointwise sum of two equally long sequences. */
  function Add(a: seq<int>, b: seq<int>): (c: seq<int>)
    requires |a| == |b|
    ensures |c| == |a|
    ensures forall i :: 0 <= i < |a| ==> c[i] == a[i] + b[i]
  {
    seq(|a|, i requires 0 <= i < |a| => a[i] + b[i])
  }

  lemma {:induction false} SumZeros(n: nat)
    ensures Sum(Zeros(n)) == 0
  {
    if n > 0 {
      assert Zeros(n)[..n - 1] == Zeros(n - 1);
      SumZeros(n - 1);
    }
  }

  /** Replacing one element changes the sum by exactly the difference. */
  lemma {:induction false} SumUpdate(s: seq<int>, i: int, v: int)
    requires 0 <= i < |s|
    ensures Sum(s[i := v]) == Sum(s) - s[i] + v
  {
    var n := |s|;
    if i == n - 1 {
      assert s[i := v][..n - 1] == s[..n - 1];
    } else {
      assert s[i := v][..n - 1] == s[..n - 1][i := v];
      SumUpdate(s[..n - 1], i, v);
    }
  }

  /** The sum is additive over pointwise addition. */
  lemma {:induction false} SumAdd(a: seq<int>, b: seq<int>)
    requires |a| == |b|
    ensures Sum(Add(a, b)) == Sum(a) + Sum(b)
  {
    var n := |a|;
    if n > 0 {
      assert Add(a, b)[..n - 1] == Add(a[..n - 1], b[..n - 1]);
      SumAdd(a[..n - 1], b[..n - 1]);
    }
  }

  /** Scaling every element scales the real sum. */
  lemma {:induction false} SumRealScale(s: seq<real>, c: real, t: seq<real>)
    requires |t| == |s|
    requires forall i :: 0 <= i < |s| ==> t[i] == s[i] * c
    ensures SumReal(t) == SumReal(s) * c
  {
    var n := |s|;
    if n > 0 {
      SumRealScale(s[..n - 1], c, t[..n - 1]);
      assert SumReal(t) == SumReal(s[..n - 1]) * c + s[n - 1] * c;
    }
  }
}

=== FILE: tactical.dfy ===
/** Tactical vote transfer (kalkulator/mandatumkalkulator.py:79-94): in every
    district, a rule (source, fraction, target) moves the given fraction of
    the source party's votes, rounded half to even, to the target party. A district with its own
    rule set uses only that set; every other district uses the global set. */
module Tactical {
  import opened Results
  import opened Seqs
  import Dicts
  import Names
  import Rounding

  datatype Rule = Rule(source: string, fraction: real, target: string)

  /** The console diagnostic printed for a rule naming an unknown party. */
  datatype Warning = InvalidParty(district: string, source: string, target: string)

  /** A row (or table) after the rules ran, with the diagnostics emitted. */
  datatype Applied = Applied(row: seq<int>, warnings: seq<Warning>)
  datatype Transferred = Transferred(rows: seq<seq<int>>, warnings: seq<Warning>)

  /** The configured form: {source: (fraction, target)} in insertion order. */
  type RuleDict = Dicts.Dict<(real, string)>

  /** Column position of a party: the first column carrying its name, or
      none when the party is not a column. */
  function IndexOf(parties: seq<string>, name: string): (r: Option<nat>)
    ensures r.None? <==> name !in parties
    ensures r.Some? ==> r.value < |parties| && parties[r.value] == name
                        && forall i :: 0 <= i < r.value ==> parties[i] != name
  {
    if |parties| == 0 then None
    else if parties[0] == name then Some(0)
    else match IndexOf(parties[1..], name)
      case None => None
      case Some(i) => Some(i + 1)
  }

  /** Both parties of the rule are columns of the vote table. */
  predicate Valid(parties: seq<string>, r: Rule)
  {
    r.source in parties && r.target in parties
  }

  /** The number of votes a rule moves: the fraction of the source's votes,
      rounded half to even. */
  function Amount(votes: int, fraction: real): (t: int)
    ensures 0 <= votes && 0.0 <= fraction <= 1.0 ==> 0 <= t <= votes
    ensures fraction == 0.0 ==> t == 0
  {
    Rounding.RoundScaled(votes, fraction);
    Rounding.RoundHalfEven(votes as real * fraction)
  }

  predicate NonNegative(row: seq<int>)
  {
    forall j :: 0 <= j < |row| ==> row[j] >= 0
  }

  /** Applies one rule to one district's row (:88-94). A valid rule takes the
      amount from the source and gives it to the target, so the district
      total is unchanged and no third party is touched; an invalid rule is
      skipped with one diagnostic. */
  function ApplyRule(row: seq<int>, parties: seq<string>, district: string, r: Rule): (a: Applied)
    requires |row| == |parties|
    ensures |a.row| == |row|
    ensures Sum(a.row) == Sum(row)
    ensures !Valid(parties, r) ==> a.row == row && a.warnings == [InvalidParty(district, r.source, r.target)]
    ensures Valid(parties, r) ==> a.warnings == []
    ensures Valid(parties, r) && r.source != r.target ==>
              var s := IndexOf(parties, r.source).value;
              var t := IndexOf(parties, r.target).value;
              && a.row[s] == row[s] - Amount(row[s], r.fraction)
              && a.row[t] == row[t] + Amount(row[s], r.fraction)
              && forall j :: 0 <= j < |row| && j != s && j != t ==> a.row[j] == row[j]
    ensures r.source == r.target ==> a.row == row
    ensures forall j :: 0 <= j < |row| && parties[j] != r.source && parties[j] != r.target ==> a.row[j] == row[j]
    ensures r.fraction == 0.0 ==> a.row == row
    ensures NonNegative(row) && 0.0 <= r.fraction <= 1.0 ==> NonNegative(a.row)
  {
    match (IndexOf(parties, r.source), IndexOf(parties, r.target))
    case (Some(s), Some(t)) =>
      Applied(Move(row, s, t, Amount(row[s], r.fraction)), [])
    case _ =>
      Applied(row, [InvalidParty(district, r.source, r.target)])
  }

  /** Subtracts `moved` votes from column s, then adds them to column t. */
  function Move(row: seq<int>, s: nat, t: nat, moved: int): (r: seq<int>)
    requires s < |row| && t < |row|
    ensures |r| == |row|
    ensures Sum(r) == Sum(row)
    ensures s != t ==> r[s] == row[s] - moved && r[t] == row[t] + moved
    ensures s == t || moved == 0 ==> r == row
    ensures forall j :: 0 <= j < |row| && j != s && j != t ==> r[j] == row[j]
    ensures NonNegative(row) && 0 <= moved <= row[s] ==> NonNegative(r)
  {
    var taken := row[s := row[s] - moved];
    var given := taken[t := taken[t] + moved];
    SumUpdate(row, s, row[s] - moved);
    SumUpdate(taken, t, taken[t] + moved);
    assert s == t || moved == 0 ==> given == row;
    given
  }

  /** Number of rules that name a party absent from the table. */
  function CountInvalid(parties: seq<string>, rules: seq<Rule>): nat
  {
    if |rules| == 0 then 0
    else CountInvalid(parties, rules[..|rules| - 1]) + (if Valid(parties, rules[|rules| - 1]) then 0 else 1)
  }

  /** The diagnostics a rule set produces in one district, as a reference
      that looks at the rules and the columns only, never at the votes: one
      per rule naming a party that is not a column, in rule order. */
  function Diagnostics(district: string, parties: seq<string>, rules: seq<Rule>): (ws: seq<Warning>)
    ensures |ws| == CountInvalid(parties, rules)
  {
    if |rules| == 0 then []
    else
      var last := rules[|rules| - 1];
      Diagnostics(district, parties, rules[..|rules| - 1])
        + (if Valid(parties, last) then [] else [InvalidParty(district, last.source, last.target)])
  }

  /** Every diagnostic names its district and an invalid rule of the set. */
  lemma {:induction false} DiagnosticsSound(district: string, parties: seq<string>, rules: seq<Rule>, i: nat)
    requires i < |Diagnostics(district, parties, rules)|
    ensures var w := Diagnostics(district, parties, rules)[i];
            && w.district == district
            && exists k :: 0 <= k < |rules| && !Valid(parties, rules[k])
                           && rules[k].source == w.source && rules[k].target == w.target
  {
    var init := rules[..|rules| - 1];
    var w := Diagnostics(district, parties, rules)[i];
    if i < |Diagnostics(district, parties, init)| {
      DiagnosticsSound(district, parties, init, i);
      var k :| 0 <= k < |init| && !Valid(parties, init[k]) && init[k].source == w.source && init[k].target == w.target;
      assert rules[k] == init[k];
    } else {
      assert !Valid(parties, rules[|rules| - 1]);
    }
  }

  /** Every invalid rule of the set has its diagnostic. */
  lemma {:induction false} DiagnosticsComplete(district: string, parties: seq<string>, rules: seq<Rule>, k: nat)
    requires k < |rules| && !Valid(parties, rules[k])
    ensures InvalidParty(district, rules[k].source, rules[k].target) in Diagnostics(district, parties, rules)
  {
    var init := rules[..|rules| - 1];
    if k < |init| {
      DiagnosticsComplete(district, parties, init, k);
      assert rules[k] == init[k];
    }
  }

  /** Some rule of the set names this party, as source or as target. */
  predicate Mentions(rules: seq<Rule>, party: string)
  {
    exists k :: 0 <= k < |rules| && (rules[k].source == party || rules[k].target == party)
  }

  predicate FractionsWithin(rules: seq<Rule>)
  {
    forall k :: 0 <= k < |rules| ==> 0.0 <= rules[k].fraction <= 1.0
  }

  predicate AllZero(rules: seq<Rule>)
  {
    forall k :: 0 <= k < |rules| ==> rules[k].fraction == 0.0
  }

  /** Applies a district's rules in insertion order, each seeing the votes
      left by the previous ones (:88). */
  function ApplyRules(row: seq<int>, parties: seq<string>, district: string, rules: seq<Rule>): (a: Applied)
    requires |row| == |parties|
    ensures |a.row| == |row|
    ensures Sum(a.row) == Sum(row)
    ensures |a.warnings| == CountInvalid(parties, rules)
    ensures a.warnings == Diagnostics(district, parties, rules)
    ensures forall j :: 0 <= j < |row| && !Mentions(rules, parties[j]) ==> a.row[j] == row[j]
    ensures AllZero(rules) ==> a.row == row
    ensures NonNegative(row) && FractionsWithin(rules) ==> NonNegative(a.row)
  {
    if |rules| == 0 then Applied(row, [])
    else
      var init := rules[..|rules| - 1];
      var last := rules[|rules| - 1];
      var before := ApplyRules(row, parties, district, init);
      var after := ApplyRule(before.row, parties, district, last);
      assert forall j :: 0 <= j < |row| && !Mentions(rules, parties[j]) ==> !Mentions(init, parties[j]) by {
        forall j | 0 <= j < |row| && Mentions(init, parties[j]) ensures Mentions(rules, parties[j]) {
          var k :| 0 <= k < |init| && (init[k].source == parties[j] || init[k].target == parties[j]);
          assert rules[k] == init[k];
        }
      }
      assert forall j :: 0 <= j < |row| && !Mentions(rules, parties[j]) ==> parties[j] != last.source && parties[j] != last.target by {
        forall j | 0 <= j < |row| && (parties[j] == last.source || parties[j] == last.target) ensures Mentions(rules, parties[j]) {
          assert rules[|rules| - 1] == last;
        }
      }
      assert AllZero(rules) ==> AllZero(init) by {
        if AllZero(rules) {
          forall k | 0 <= k < |init| ensures init[k].fraction == 0.0 {
            assert init[k] == rules[k];
          }
        }
      }
      assert FractionsWithin(rules) ==> FractionsWithin(init) by {
        if FractionsWithin(rules) {
          forall k | 0 <= k < |init| ensures 0.0 <= init[k].fraction <= 1.0 {
            assert init[k] == rules[k];
          }
        }
      }
      Applied(after.row, before.warnings + after.warnings)
  }

  /** A single rule set runs just that rule. */
  lemma ApplyRulesSingle(row: seq<int>, parties: seq<string>, district: string, r: Rule)
    requires |row| == |parties|
    ensures ApplyRules(row, parties, district, [r]) == ApplyRule(row, parties, district, r)
  {
    assert [r][..0] == [];
    assert [] + ApplyRule(row, parties, district, r).warnings == ApplyRule(row, parties, district, r).warnings;
  }

  /** Running r1 + r2 is running r1 and then r2 on the votes r1 left, with
      the diagnostics of r1 before those of r2: the rules take effect one
      after the other, in order. */
  lemma {:induction false} ApplyRulesAppend(row: seq<int>, parties: seq<string>, district: string,
                                            r1: seq<Rule>, r2: seq<Rule>)
    requires |row| == |parties|
    ensures var a := ApplyRules(row, parties, district, r1);
            var b := ApplyRules(a.row, parties, district, r2);
            ApplyRules(row, parties, district, r1 + r2) == Applied(b.row, a.warnings + b.warnings)
    decreases |r2|
  {
    var a := ApplyRules(row, parties, district, r1);
    if |r2| == 0 {
      assert r1 + r2 == r1;
      assert a.warnings + [] == a.warnings;
    } else {
      var init := r2[..|r2| - 1];
      var last := r2[|r2| - 1];
      var rules := r1 + r2;
      assert rules[..|rules| - 1] == r1 + init;
      assert rules[|rules| - 1] == last;
      ApplyRulesStep(row, parties, district, rules);
      ApplyRulesStep(a.row, parties, district, r2);
      ApplyRulesAppend(row, parties, district, r1, init);
      var b := ApplyRules(a.row, parties, district, init);
      var step := ApplyRule(b.row, parties, district, last);
      assert (a.warnings + b.warnings) + step.warnings == a.warnings + (b.warnings + step.warnings);
    }
  }

  /** The last rule runs on the votes the earlier rules left. */
  lemma ApplyRulesStep(row: seq<int>, parties: seq<string>, district: string, rules: seq<Rule>)
    requires |row| == |parties| && |rules| > 0
    ensures var before := ApplyRules(row, parties, district, rules[..|rules| - 1]);
            var after := ApplyRule(before.row, parties, district, rules[|rules| - 1]);
            ApplyRules(row, parties, district, rules) == Applied(after.row, before.warnings + after.warnings)
  {
  }

  /** The rule set of one district (:82-85): its own set when it has one,
      with no merging; the global set otherwise. */
  function RulesFor(district: string, global: seq<Rule>, byDistrict: Dicts.Dict<seq<Rule>>): seq<Rule>
  {
    match Dicts.Get(byDistrict, district)
    case Some(own) => own
    case None => global
  }

  /** Runs the rules over the whole table, district by district (:80-94);
      the diagnostics are those of each district's rule set, in district
      order, whatever the votes. */
  function TransferTable(rows: seq<seq<int>>, districts: seq<string>, parties: seq<string>,
                         global: seq<Rule>, byDistrict: Dicts.Dict<seq<Rule>>): (t: Transferred)
    requires |rows| == |districts|
    requires forall d :: 0 <= d < |rows| ==> |rows[d]| == |parties|
    ensures |t.rows| == |rows|
    ensures forall d :: 0 <= d < |rows| ==>
              t.rows[d] == ApplyRules(rows[d], parties, districts[d], RulesFor(districts[d], global, byDistrict)).row
    ensures forall d :: 0 <= d < |rows| ==> |t.rows[d]| == |parties| && Sum(t.rows[d]) == Sum(rows[d])
    ensures t.warnings == TableDiagnostics(districts, parties, global, byDistrict)
  {
    Transferred(
      seq(|rows|, d requires 0 <= d < |rows| =>
        ApplyRules(rows[d], parties, districts[d], RulesFor(districts[d], global, byDistrict)).row),
      TableWarnings(rows, districts, parties, global, byDistrict))
  }

  function TableWarnings(rows: seq<seq<int>>, districts: seq<string>, parties: seq<string>,
                         global: seq<Rule>, byDistrict: Dicts.Dict<seq<Rule>>): (ws: seq<Warning>)
    requires |rows| == |districts|
    requires forall d :: 0 <= d < |rows| ==> |rows[d]| == |parties|
    ensures ws == TableDiagnostics(districts, parties, global, byDistrict)
  {
    if |rows| == 0 then []
    else
      var n := |rows| - 1;
      var a := ApplyRules(rows[n], parties, districts[n], RulesFor(districts[n], global, byDistrict));
      assert districts[..n] == districts[..|districts| - 1];
      TableWarnings(rows[..n], districts[..n], parties, global, byDistrict) + a.warnings
  }

  /** The diagnostics of every district's rule set, in district order. */
  function TableDiagnostics(districts: seq<string>, parties: seq<string>,
                            global: seq<Rule>, byDistrict: Dicts.Dict<seq<Rule>>): seq<Warning>
  {
    if |districts| == 0 then []
    else
      var n := |districts| - 1;
      TableDiagnostics(districts[..n], parties, global, byDistrict)
        + Diagnostics(districts[n], parties, RulesFor(districts[n], global, byDistrict))
  }

  /** Every diagnostic of a district's rule set is a diagnostic of the table. */
  lemma {:induction false} TableDiagnosticsComplete(districts: seq<string>, parties: seq<string>,
                                                    global: seq<Rule>, byDistrict: Dicts.Dict<seq<Rule>>,
                                                    d: nat, w: Warning)
    requires d < |districts| && w in Diagnostics(districts[d], parties, RulesFor(districts[d], global, byDistrict))
    ensures w in TableDiagnostics(districts, parties, global, byDistrict)
  {
    var n := |districts| - 1;
    if d < n {
      var init := districts[..n];
      assert init[d] == districts[d];
      TableDiagnosticsComplete(init, parties, global, byDistrict, d, w);
    }
  }

  /** Every diagnostic of the table is a diagnostic of some district's rule
      set. */
  lemma {:induction false} TableDiagnosticsSound(districts: seq<string>, parties: seq<string>,
                                                 global: seq<Rule>, byDistrict: Dicts.Dict<seq<Rule>>, w: Warning)
    requires w in TableDiagnostics(districts, parties, global, byDistrict)
    ensures exists d :: 0 <= d < |districts| && w in Diagnostics(districts[d], parties, RulesFor(districts[d], global, byDistrict))
  {
    var n := |districts| - 1;
    var init := districts[..n];
    if w in TableDiagnostics(init, parties, global, byDistrict) {
      TableDiagnosticsSound(init, parties, global, byDistrict, w);
      var d :| 0 <= d < |init| && w in Diagnostics(init[d], parties, RulesFor(init[d], global, byDistrict));
      assert districts[d] == init[d];
    } else {
      assert w in Diagnostics(districts[n], parties, RulesFor(districts[n], global, byDistrict));
    }
  }

  /** A district with its own rule set is unaffected by the global rules:
      any two global sets give it the same votes. */
  lemma {:induction false} OverrideIgnoresGlobal(rows: seq<seq<int>>, districts: seq<string>, parties: seq<string>,
                                                 g1: seq<Rule>, g2: seq<Rule>, byDistrict: Dicts.Dict<seq<Rule>>, d: nat)
    requires |rows| == |districts| && d < |rows|
    requires forall e :: 0 <= e < |rows| ==> |rows[e]| == |parties|
    requires Dicts.Get(byDistrict, districts[d]).Some?
    ensures TransferTable(rows, districts, parties, g1, byDistrict).rows[d]
         == TransferTable(rows, districts, parties, g2, byDistrict).rows[d]
  {
    assert RulesFor(districts[d], g1, byDistrict) == RulesFor(districts[d], g2, byDistrict);
  }

  /** A district without its own rule set runs exactly the global rules. */
  lemma NoOverrideUsesGlobal(rows: seq<seq<int>>, districts: seq<string>, parties: seq<string>,
                             global: seq<Rule>, byDistrict: Dicts.Dict<seq<Rule>>, d: nat)
    requires |rows| == |districts| && d < |rows|
    requires forall e :: 0 <= e < |rows| ==> |rows[e]| == |parties|
    requires Dicts.Get(byDistrict, districts[d]).None?
    ensures TransferTable(rows, districts, parties, global, byDistrict).rows[d]
         == ApplyRules(rows[d], parties, districts[d], global).row
  {
  }

  /** With no rules at all, or only zero fractions, the table is unchanged. */
  lemma {:induction false} ZeroRulesIdentity(rows: seq<seq<int>>, districts: seq<string>, parties: seq<string>,
                                             global: seq<Rule>, byDistrict: Dicts.Dict<seq<Rule>>)
    requires |rows| == |districts|
    requires forall d :: 0 <= d < |rows| ==> |rows[d]| == |parties|
    requires AllZero(global)
    requires forall i :: 0 <= i < |byDistrict| ==> AllZero(byDistrict[i].1)
    ensures TransferTable(rows, districts, parties, global, byDistrict).rows == rows
  {
    var t := TransferTable(rows, districts, parties, global, byDistrict);
    forall d | 0 <= d < |rows| ensures t.rows[d] == rows[d] {
      var rs := RulesFor(districts[d], global, byDistrict);
      match Dicts.Find(byDistrict, districts[d])
      case Some(i) =>
        assert rs == byDistrict[i].1;
      case None =>
        assert rs == global;
    }
  }

  /** The configured rule dictionaries after normalisation (:26-36): the
      source key and the target name of each entry pass through Normalize,
      sources that collide keep the first position and the last value. */
  function NormalizeRules(d: RuleDict): (r: RuleDict)
    ensures Dicts.UniqueKeys(r)
    ensures |r| <= |d|
  {
    Dicts.FromPairs(NormalizedPairs(d))
  }

  /** A normalised source maps to the last rule whose source normalises to
      it, with that rule's target normalised. */
  lemma NormalizeRulesGet(d: RuleDict, k: string)
    ensures Dicts.Get(NormalizeRules(d), k) == Dicts.LastValue(NormalizedPairs(d), k)
  {
    Dicts.FromPairsGet(NormalizedPairs(d), k);
  }

  /** The normalised rules run in the order in which their normalised
      sources first occur in the configured dictionary. */
  lemma NormalizeRulesOrder(d: RuleDict)
    ensures Dicts.Keys(NormalizeRules(d)) == Dicts.FirstKeys(NormalizedPairs(d))
  {
    Dicts.FromPairsKeys(NormalizedPairs(d));
  }

  /** When no two sources normalise alike, normalisation keeps every rule
      in its configured position. */
  lemma NormalizeRulesDistinct(d: RuleDict)
    requires Dicts.UniqueKeys(NormalizedPairs(d))
    ensures NormalizeRules(d) == NormalizedPairs(d)
  {
    Dicts.FromPairsDistinct(NormalizedPairs(d));
  }

  function NormalizedPairs(d: RuleDict): seq<(string, (real, string))>
  {
    seq(|d|, i requires 0 <= i < |d| => (Names.Normalize(d[i].0), (d[i].1.0, Names.Normalize(d[i].1.1))))
  }

  /** The rules of a dictionary in insertion order. */
  function ToRules(d: RuleDict): (r: seq<Rule>)
    ensures |r| == |d|
    ensures forall i :: 0 <= i < |d| ==> r[i] == Rule(d[i].0, d[i].1.0, d[i].1.1)
  {
    seq(|d|, i requires 0 <= i < |d| => Rule(d[i].0, d[i].1.0, d[i].1.1))
  }
}
